=== FILE: README.md ===
# Chiplet demo Stream Deck plugin: the telemetry-to-display core in Dafny

The plugin drives Stream Deck keys from a chiplet network's telemetry. Each snapshot holds two things:

- a list of links, each with a status and, optionally, statistics: event count, round-trip latency and packets per second;
- a small topology: a hub (node 0) and up to three leaves with directed edges.

Column `c` of the deck shows link `c`:

- row 0 shows its status;
- row 1 shows its event count as a title;
- row 2 shows a latency band;
- row 3 shows a packet-rate band.

Four fixed keys show the topology. The hub's state is a bitmask of its out-edges. Each leaf's state (0..14) encodes its in-edges and out-edges. A registry maps grid positions to the ids of the keys that appeared there. Three smaller keys each keep a little state:

- a start/stop toggle for fetching;
- a logo key that cycles through six images;
- an API-call counter.

The model is functional. Display updates are planned by grid position, resolved through the registry into writes addressed to key ids, and then applied to the host's list of visible actions. A key's change is recorded as a new state and title on that list. Timer and socket operations appear as a returned list of effects.

| module | file | models |
|---|---|---|
| `Wrappers` | wrappers.dfy | `Option` |
| `Decimal` | decimal.dfy | `Number#toString` for non-negative integer counts below 2^53 |
| `KeyRegistry` | key_registry.dfy | `keyMapping` and its get/set/clear (`src/utils/utils.ts`) |
| `Display` | display.dfy | `streamDeck.actions` and the write loops, with and without `break`; `updateKeyState` |
| `RangeBucketer` | range_bucketer.dfy | `mapValueToStateIndex`, `latencyMapping`, `ppsMapping` |
| `LinkStatus` | link_status.dfy | `mapLinkStatusToState` |
| `Topology` | topology.dfy | the hub and leaf state computation of `processTreeData` |
| `Dispatcher` | dispatcher.dfy | `processJsonData`, `processTreeData`'s writes, `positions` |
| `Fetching` | fetching.dfy | `startFetching` / `stopFetching` |
| `StartStop` | start_stop.dfy | `src/actions/start-stop.ts` |
| `Logos` | logos.dfy | `src/actions/logos.ts` |
| `ApiCounter` | counter.dfy | `src/actions/counter.ts` |
| `TopologyExamples`, `DispatcherExamples` | topology_examples.dfy, dispatcher_examples.dfy | worked examples |

Three facts about the topology code shape the model:

- **Edges are a list.** A repeated edge counts every time it appears, because `src/utils/intervalManager.ts:231-258` filters a list. For example, two edges hub→leaf 1 give the same hub state (2) as one edge hub→leaf 3.
- **Leaf state 11** is an in-edge from the hub plus out-edges to both peers (`src/utils/intervalManager.ts:307`).
- **The three leaf tables are not peer substitutions of each other.** At degree 3, rows 12 and 13 use a different peer for node 1 than for nodes 2 and 3 (`src/utils/intervalManager.ts:308`, `:313`, `:318`). `Topology.Row12Out` and `Topology.Row12In` carry this per-node difference.

## Model

| member | source | states |
|---|---|---|
| Decimal.Render | src/utils/intervalManager.ts:155 | The text of a count is a non-empty string of decimal digits with no leading zero; it is one character exactly for counts below 10 |
| Decimal.ParseRender | src/actions/counter.ts:46 | Reading a count's text back as a decimal number gives the count: `toString` loses nothing |
| Decimal.RenderInjective | src/actions/counter.ts:46 | Different counts show different titles |
| KeyRegistry.KeyInjective | src/utils/utils.ts:24 | The composite text key `${column}-${row}` is the same for two positions only when the positions are equal, so positions never collide in the map |
| KeyRegistry.EmptyRegistry | src/utils/utils.ts:3 | Before any key appears, every position has no context (`getKeyContext` is `undefined`) |
| KeyRegistry.GetKeyContext | src/utils/utils.ts:28-31 | A position has a context exactly when its composite key is in the map, and then it is the stored value |
| KeyRegistry.SetKeyContext | src/utils/utils.ts:22-26 | Afterwards the position reads back the new context, replacing any old one; every other position reads as before |
| KeyRegistry.ClearKeyContext | src/utils/utils.ts:34-37 | Afterwards the position has no context; every other position reads as before |
| Display.ApplyWrite | src/utils/utils.ts:8-18 | Only the first eligible action with the id is changed: a key outside a multi-action. Its state and title are replaced where the write gives them. Every other action and every id is unchanged |
| Display.UpdateKeyState | src/utils/utils.ts:6-19 | The first eligible action with the context gets the state and the title; all others are unchanged; with no such action the list is unchanged |
| Display.ApplyEvery | src/actions/start-stop.ts:41-52 | A loop without `break`: every eligible action with the id is changed and no other action is |
| Display.ApplyWritesPointwise | src/utils/intervalManager.ts:101-189 | After a sequence of writes, the first eligible action with a given id shows the state and the title of the last write to that id that sets each. Every other action is untouched |
| Display.ApplyWritesIdempotent | src/utils/intervalManager.ts:101-189 | Applying the same writes twice leaves the display as applying them once |
| Display.LastStateAppend | src/utils/intervalManager.ts:189 | For writes issued in two batches, the later batch's state and title win; the earlier batch shows only where the later one is silent |
| RangeBucketer.ClassifyFrom | src/utils/intervalManager.ts:205-213 | The scan from a row on returns the index of the first row containing the value, and -1 when no row from there on contains it. Its result is always -1 or the index of a containing row |
| RangeBucketer.Classify | src/utils/intervalManager.ts:205-213 | A value gets the index of the first row whose inclusive range contains it, and -1 when no row does |
| RangeBucketer.MapValueToStateIndex | src/utils/intervalManager.ts:205-213 | The loop with its early `return` computes the same first-match index, or -1 |
| RangeBucketer.AscendingSeparated | src/utils/intervalManager.ts:14-40 | In a table where each range is proper and ends before the next one starts, no two rows overlap |
| RangeBucketer.ContainingRowDecides | src/utils/intervalManager.ts:205-213 | In such a table, the row that contains a value decides its index, wherever that row sits |
| RangeBucketer.LatencyTableAscending | src/utils/intervalManager.ts:14-40 | The latency table has 25 proper, strictly ascending, non-overlapping ranges within [0, 100], numbered 1..25 in order |
| RangeBucketer.LatencyRange | src/utils/intervalManager.ts:14-40 | A latency gets band 1..25 or -1. It gets -1 exactly when no band contains it, and always below 0 or above 100 |
| RangeBucketer.LatencyGap | src/utils/intervalManager.ts:14-40 | A latency strictly between the upper bound of one band and the lower bound of the next gets -1 |
| RangeBucketer.LatencyExamples | src/utils/intervalManager.ts:14-40 | 1.25 is band 1; 1.2505 falls into the gap before band 2 (-1); 2 and 3.75 are band 2; 100 is band 25 |
| RangeBucketer.PpsTableShape | src/utils/intervalManager.ts:41-59 | The packet-rate table has 17 rows numbered 1..17 in order, and row 15 is inverted (`lo > hi`) |
| RangeBucketer.PpsNeverFifteen | src/utils/intervalManager.ts:56 | The inverted row never matches, so no packet rate gets state 15 |
| RangeBucketer.PpsGap | src/utils/intervalManager.ts:55-57 | Every rate strictly between 28000 and 29000.01 gets -1 |
| RangeBucketer.PpsExamples | src/utils/intervalManager.ts:44-47 | 16500 is band 3; 20000, an upper bound, is band 6 |
| LinkStatus.StatusState | src/utils/intervalManager.ts:195-202 | The state is 1 exactly for "connected" and 2 exactly for "disconnected"; every other status, "linked" included, gets 0 |
| Topology.HubState | src/utils/intervalManager.ts:234-240 | The hub state is 1 per listed hub→1 edge, plus 4 per hub→2 edge, plus 2 per hub→3 edge; edges from leaves add nothing |
| Topology.HubStateIsBitmask | src/utils/intervalManager.ts:234-240 | When no hub edge is repeated, the hub state is in 0..7 and decodes back to the set of leaves the hub points to |
| Topology.HubStateInjective | src/utils/intervalManager.ts:234-240 | Without repeated hub edges, different sets of hub edges give different hub states |
| Topology.OutEdgesCount | src/utils/intervalManager.ts:257 | `sourceEdges` holds each destination as often as the edge to it is listed |
| Topology.InEdgesCount | src/utils/intervalManager.ts:258 | `destinationEdges` holds each source as often as the edge from it is listed |
| Topology.LeafStateOfLists | src/utils/intervalManager.ts:264-322 | From the filtered out- and in-lists, the code is in 0..14: 0 off the leaves, with no in-edge or at degree 4 or more; otherwise a non-zero code lies in 1..3 at degree 1, 4..10 at degree 2 and 11..14 at degree 3 |
| Topology.LeafState | src/utils/intervalManager.ts:256-322 | A leaf state is in 0..14. It is 0 for a node that is not a leaf, for a leaf with no in-edge, and for total degree 4 or more |
| Topology.PatternGivesCode | src/utils/intervalManager.ts:264-322 | Each adjacency pattern yields its code despite the overriding `if` chain. The degree-1 patterns give 1..3 and the degree-2 patterns give 4..10. In from the hub plus out to both peers gives 11; the node-specific rows give 12/13; three in-edges give 14 |
| Topology.CodeGivesPattern | src/utils/intervalManager.ts:264-322 | Conversely, a code 1..13 read off a leaf's edge lists fixes their contents, and code 14 means three in-edges and no out-edge |
| Topology.ThreeInEdgesAreAllPeers | src/utils/intervalManager.ts:310 | Take a simple clique: valid endpoints, no self-loops, no repeats. There, a leaf with three in-edges has one from the hub and one from each peer |
| Topology.LeafStateIffPattern | src/utils/intervalManager.ts:264-322 | A leaf shows code `c` if and only if its in-edges and out-edges form `c`'s pattern. For code 14 this holds on simple-clique edges |
| Topology.LeafStateDependsOnlyOnShape | src/utils/intervalManager.ts:257-322 | A leaf's code depends only on which in-edges and out-edges it has (with multiplicity), not on their order |
| Topology.ReorderingEdges | src/utils/intervalManager.ts:235-258 | Listing the same edges in any order changes neither the hub state nor any leaf state |
| TopologyExamples.HubExamples | src/utils/intervalManager.ts:234-240 | [(0,1)] gives 1, adding (0,2) gives 5, all three give 7, and edges from leaves give 0. Two hub→1 edges give the same state as one hub→3 edge |
| TopologyExamples.LeafExamplesDegreeOne | src/utils/intervalManager.ts:265-270 | For node 1: in from the hub gives 1 and in from node 3 gives 3. A lone out-edge gives 0, and so does no edge |
| TopologyExamples.LeafExampleInHubOutPeer | src/utils/intervalManager.ts:281 | Node 1 in from the hub and out to node 2 gives 4 |
| TopologyExamples.LeafExampleTwoOut | src/utils/intervalManager.ts:279-304 | Two out-edges and no in-edge give 0 |
| TopologyExamples.LeafExampleRow12Node1 | src/utils/intervalManager.ts:308 | Node 1 with [(0,1),(1,2),(3,1)] gives 12 |
| TopologyExamples.LeafExampleRow12Node2 | src/utils/intervalManager.ts:313 | Node 2 out to node 3 and in from the hub and node 1 gives 12 |
| TopologyExamples.LeafExampleRow11 | src/utils/intervalManager.ts:307 | Node 1 in from the hub and out to both peers gives 11 |
| TopologyExamples.LeafExampleAllIn | src/utils/intervalManager.ts:310 | Node 1 with three in-edges gives 14 |
| Dispatcher.LinkPlan | src/utils/intervalManager.ts:101-187 | An entry without `link` yields no update. Otherwise it yields one update for each of rows 0..3 of its column, every one carrying a title; the event-count row never carries a state |
| Dispatcher.LinkPlanContents | src/utils/intervalManager.ts:104-184 | Row 0 gets the status state and title "". Row 1's title is the event count when the link is connected with statistics, and "" otherwise. A live link puts its latency band with title "" on row 2 and its packet-rate band with the formatted rate on row 3; otherwise rows 2 and 3 get state 0 and "" |
| Dispatcher.LinksPlan | src/utils/intervalManager.ts:101-104 | Every update lies in rows 0..3 of a column whose entry carries a `link`; no event-count update sets a state |
| Dispatcher.TreePlan | src/utils/intervalManager.ts:229-331 | The hub and then leaves 1..3, as far as `nodes` reaches, each get one update; nodes past index 3 get none. Node `k` is drawn at (4,2), (5,2), (5,3) or (4,3) for `k` = 0..3, and these positions are distinct. The hub gets the hub state and each leaf its leaf state; every node's title is the initial of its name |
| Dispatcher.Resolve | src/utils/intervalManager.ts:108-115 | Every write carries the state and title of a planned update to the non-empty context registered at that update's position. There are never more writes than updates, and no write at all when nothing is registered |
| Dispatcher.ResolveTraces | src/utils/intervalManager.ts:108-115 | Every planned update at a registered position is written to that position's context |
| Dispatcher.ResolveAppend | src/utils/intervalManager.ts:189 | Resolving the link updates and then the tree updates gives the writes of the whole snapshot, in order |
| Dispatcher.ProcessJsonData | src/utils/intervalManager.ts:88-191 | The action list keeps its ids and kinds. Processing throws exactly when there are no nodes and the hub's position is registered; the display then carries the link updates alone |
| Dispatcher.Context | src/utils/intervalManager.ts:108-110 | A position yields a context exactly when one is stored there and it is non-empty; `if (context)` rejects `undefined` and "" alike |
| Dispatcher.NodePosition | src/utils/intervalManager.ts:216-221 | Every node is drawn in the 2×2 block of columns 4..5 and rows 2..3; the hub and leaf 1 take row 2 |
| Dispatcher.NodePositionInjective | src/utils/intervalManager.ts:216-221 | No two nodes share a position |
| Dispatcher.Initial | src/utils/intervalManager.ts:245 | The title is empty for an empty name and one character otherwise; a lower-case ASCII first letter becomes its own capital (`a`→`A`, …, `z`→`Z`) and any other first character is kept |
| Dispatcher.PlannedAppend | src/utils/intervalManager.ts:189 | At any position, the later batch of planned updates wins over the earlier one |
| Dispatcher.ResolvedLastWrite | src/utils/intervalManager.ts:108-115 | With no context shared by two positions, the last write to a position's context carries the last update planned for that position |
| Dispatcher.KeyShowsPlannedUpdate | src/utils/intervalManager.ts:88-191 | The key registered at a position ends up showing the last state and title planned there, and keeps its own where none was planned |
| Dispatcher.ProcessJsonDataIdempotent | src/utils/intervalManager.ts:88-191 | Processing the same snapshot twice leaves the display as processing it once |
| Dispatcher.TreeUpdatesWin | src/utils/intervalManager.ts:189 | Where a tree update and a link update reach the same key, the tree's state and title win |
| Dispatcher.PlannedUnique | src/utils/intervalManager.ts:104-184 | When exactly one planned update addresses a position, the position gets exactly that update |
| Dispatcher.LinkPlanAt | src/utils/intervalManager.ts:104-184 | Within one link's updates each row of its column is addressed exactly once |
| Dispatcher.LinksPlanAt | src/utils/intervalManager.ts:101 | Among all link updates, only the entry at index `c` addresses column `c` |
| Dispatcher.LinksPlanMissing | src/utils/intervalManager.ts:104 | A column with no entry, or whose entry has no `link`, gets no link update |
| Dispatcher.TreePlanAt | src/utils/intervalManager.ts:243-246 | A shown node's position is planned to get that node's state and title and nothing else from the tree |
| Dispatcher.TreeKeyPlanned | src/utils/intervalManager.ts:189 | In the whole snapshot, a shown node's position ends with that node's state and title, even where a link shares the column |
| Dispatcher.LinkKeyPlanned | src/utils/intervalManager.ts:101-189 | Away from the topology keys, a position gets exactly its link's update for that row. It gets nothing when its column has no link or the row is past 3 |
| Dispatcher.TreeKeyShowsNode | src/utils/intervalManager.ts:243-246 | A registered topology key ends up showing its node's state, titled with the initial of the node's name |
| Dispatcher.LinkKeyShows | src/utils/intervalManager.ts:101-187 | A registered link key away from the topology keys ends up showing its link's update for that row. The event-count key keeps its state. Keys of columns without a link are unchanged |
| DispatcherExamples.LiveLinkScenario | src/utils/intervalManager.ts:104-184 | One connected link with 42 events, 2 ms and 16500 packets/s plans status 1, the title "42", latency band 2 and packet-rate band 3 with the formatted rate |
| DispatcherExamples.DownLinkScenario | src/utils/intervalManager.ts:104-184 | A disconnected link plans status 2, an empty event title, and state 0 with empty titles for latency and packet rate |
| Fetching.StartFetching | src/utils/intervalManager.ts:63-75 | Afterwards a timer runs. With one already running nothing happens; otherwise the timer is scheduled first, and an immediate request is sent exactly on the Mac-mini deployment |
| Fetching.StopFetching | src/utils/intervalManager.ts:78-85 | Afterwards no timer runs. If one ran, the socket is closed and the timer cancelled; otherwise nothing happens |
| Fetching.Tick | src/utils/intervalManager.ts:65-69 | A timer firing sends a request only on the Windows deployment |
| Fetching.ConfiguredDeployment | src/utils/intervalManager.ts:63-75 | In the configured Mac-mini deployment a start schedules the timer and sends one request at once; timer firings send nothing |
| Fetching.StartIdempotent | src/utils/intervalManager.ts:64 | Starting twice is starting once |
| Fetching.StopIdempotent | src/utils/intervalManager.ts:79 | Stopping twice is stopping once |
| Fetching.StartStopRoundTrip | src/utils/intervalManager.ts:63-85 | From idle, start then stop returns to idle |
| Fetching.TimersBalanced | src/utils/intervalManager.ts:63-85 | Over any run of start and stop calls, scheduled timers plus a timer running at the outset equal cancelled timers plus a timer running at the end. No timer is leaked or cancelled twice, and every cancel is paired with a socket close |
| StartStop.ShowState | src/actions/start-stop.ts:41-52 | Every eligible key with the id shows the given state with its title kept; nothing else changes |
| StartStop.OnWillAppear | src/actions/start-stop.ts:12-26 | The key forgets it was fetching and every key with its id shows state 0 with its title kept; the timer is left alone |
| StartStop.OnKeyDown | src/actions/start-stop.ts:28-52 | A press flips `isFetching`: it stops fetching when the flag was set and starts it otherwise. Afterwards a timer runs exactly when the flag is set, and the key shows 1 exactly then, otherwise 0, with its title kept |
| StartStop.ConsistencyPreserved | src/actions/start-stop.ts:16 | If the key believes it is fetching only while a timer runs, that stays true after either handler |
| StartStop.ReappearWhileFetching | src/actions/start-stop.ts:16 | After the key reappears while a timer runs, the next press starts no second timer and shows "stop" again |
| StartStop.TwoPressesRoundTrip | src/actions/start-stop.ts:31-39 | From a fresh key with no timer, two presses schedule and then cancel one timer and return to the start |
| Logos.Advance | src/actions/logos.ts:34-38 | The counter moves from `s` < 5 to `s`+1 and from 5 (or more) to 0, and never leaves 0..5 |
| Logos.IterateCycles | src/actions/logos.ts:34-38 | After `n` presses from a value in 0..5 the counter is (start + `n`) mod 6 |
| Logos.PressesSinceLoad | src/actions/logos.ts:5-9 | After `n` presses since the plugin loaded, the shared counter is `n` mod 6 |
| Logos.SixPressesReturn | src/actions/logos.ts:9 | Six presses bring the counter back to where it was |
| Logos.OnKeyDown | src/actions/logos.ts:28-51 | A press advances the shared counter. When the key's id is non-empty, the first eligible key with that id shows the new value and keeps its title. Nothing else changes |
| Logos.OnWillAppear | src/actions/logos.ts:15-23 | The key is registered at its position, (0,0) without coordinates, and all other positions are kept. The first eligible key with its id shows state 0 and title ""; the counter is not touched |
| ApiCounter.UpdateTitle | src/actions/counter.ts:40-50 | Every eligible key with the current context shows a title that reads back as the count, with its state kept. Without a context nothing changes |
| ApiCounter.OnWillAppear | src/actions/counter.ts:13-18 | The key becomes the current context, the count is unchanged, and the key's title reads back as the count while its state is kept |
| ApiCounter.OnKeyDown | src/actions/counter.ts:20-26 | The count resets to 0, the pressed key becomes the context, and its title becomes "0" while its state is kept |
| ApiCounter.IncrementCount | src/actions/counter.ts:33-37 | The count grows by exactly one and the context key's title reads back as the new count while its state is kept |
| ApiCounter.GetApiCount | src/actions/counter.ts:52-54 | Reads the shared count; what it returns after a run of calls is stated by the two lemmas below |
| ApiCounter.CountsSinceLoad | src/actions/counter.ts:3 | From the initial count 0, `n` API calls leave the count at `n`. Until a key has appeared or been pressed, no key changes |
| ApiCounter.CountsSincePress | src/actions/counter.ts:52-54 | After a press and then `n` increments, `getApiCount` returns `n`, and the pressed key's title reads back as `n` |

## Left out

- The WebSocket and HTTP transport (`src/utils/apiService.ts`): connecting, sending, `JSON.parse`, reconnection, and the column-to-port-name lookup. This is network I/O. Closing the socket and sending a request appear only as effects in `Fetching`.
- The `setInterval` timer itself. `Fetching.Fetcher` models only whether `intervalId` holds a timer. `devEnv` is the parameter `Fetching.DevEnv`, and `Fetching.Configured` is the value the source sets.
- Stream Deck SDK calls and the logger. `setState` and `setTitle` are modelled as changes to `Display.KeyAction` records; logging is omitted.
- `toLocaleString` for the packet-rate title. This is library number formatting, passed into the dispatcher as the function `ppsText`.
- Decimal.Render: models `toString` only for non-negative integers below 2^53, where JavaScript prints plain digits. It does not model the exponent form (`1e+21`) or the loss of precision for larger numbers.
- Dispatcher.Statistics: the event count is a natural number. Negative or fractional counts are outside the model.
- Dispatcher.Initial: upper-cases ASCII letters only; other characters are kept as they are, whereas JavaScript's `toUpperCase` also maps non-ASCII letters. It takes the name's first character as a whole Unicode scalar, whereas `charAt(0)` takes one UTF-16 code unit, which is a lone surrogate for a name that starts outside the Basic Multilingual Plane.
- Dispatcher.LinksPlan: its contract places updates only in the columns of entries that carry a link. That column `c` gets exactly the updates of entry `c` is stated by `Dispatcher.LinksPlanAt`.
- Dispatcher.Resolve: its contract traces every write back to a planned update. The converse, that every update at a registered position is written, is stated by `Dispatcher.ResolveTraces`.
- ApiCounter.GetApiCount: a plain read of the count with no contract of its own. `ApiCounter.CountsSinceLoad` and `ApiCounter.CountsSincePress` state what it returns.
- RangeBucketer.Classify: compares exact reals, where the source compares IEEE doubles. Each table bound and each metric is taken as its shortest decimal text read exactly. A decimal text that rounds to the same double as a bound, such as `1.2509999999999999` for `1.251`, can therefore be classified differently.
- NaN and ±Infinity values. Dafny reals cannot represent them; in the source they match no row and give -1.
- Decoding untyped JSON: `json.snapshots || []` and the fallback to an empty tree when `nodes` or `edges` is not an array (`src/utils/intervalManager.ts:89-96`). The model starts from decoded datatypes.
- Dispatcher.ProcessJsonData: models the exception from reading `nodes[0]` only as a flag. What the caller of `processJsonData` does with it is not modelled.
- Dispatcher.KeyShowsPlannedUpdate, Dispatcher.ResolvedLastWrite, Dispatcher.TreeKeyShowsNode and Dispatcher.LinkKeyShows: these assume that no two positions hold the same context. The source never clears a moved key's old position, so the assumption can fail. When it does, `Dispatcher.ResolveTraces` and `Display.ApplyWritesPointwise` still describe the display.
- The commented-out Mini-deck positions and the events mapping (`src/utils/intervalManager.ts:123`, `:129`, `:138`, `:222-227`, `:248-253`, `:335-344`).
- `src/plugin.ts`, `src/actions/link-status.ts` and `src/actions/node-3.ts`. These only register actions; their one piece of logic, a `setKeyContext` call, is `KeyRegistry.SetKeyContext`.
- Topology.LeafStateIffPattern: for code 14, stated only for a simple clique. On other edge lists, 14 means only that there are three in-edges and no out-edge; `Topology.CodeGivesPattern` states that case.

=== FILE: counter.dfy ===
/**
 * The API-call counter key (`src/actions/counter.ts`): a count shared by the plugin, shown as
 * decimal text on every key carrying the id the counter last saw.
 */
module ApiCounter {
  import opened Wrappers
  import Decimal
  import opened Display

  /** `apiCallCount` and the singleton's `currentContext` (`null` until a key appears or is pressed). */
  datatype Counter = Counter(count: nat, context: Option<string>)

  const Start := Counter(0, None)

  /** `updateTitle`: every eligible key whose id is the current context shows the count as text. */
  function UpdateTitle(c: Counter, acts: seq<KeyAction>): (r: seq<KeyAction>)
    ensures SameShape(acts, r)
    ensures c.context.None? ==> r == acts
    ensures forall i :: 0 <= i < |acts| && c.context.Some? && Matches(acts[i], c.context.value) ==>
              && Decimal.AllDigits(r[i].title)
              && Decimal.Parse(r[i].title) == c.count
              && r[i].state == acts[i].state
    ensures forall i :: 0 <= i < |acts| && (c.context.None? || !Matches(acts[i], c.context.value)) ==> r[i] == acts[i]
  {
    match c.context
    case None => acts
    case Some(h) =>
      Decimal.ParseRender(c.count);
      ApplyEvery(acts, Write(h, None, Some(Decimal.Render(c.count))))
  }

  datatype Shown = Shown(counter: Counter, acts: seq<KeyAction>)

  /** The key appearing becomes the current context and shows the count, which is kept. */
  function OnWillAppear(c: Counter, acts: seq<KeyAction>, id: string): (r: Shown)
    ensures r.counter == Counter(c.count, Some(id))
    ensures SameShape(acts, r.acts)
    ensures forall i :: 0 <= i < |acts| && Matches(acts[i], id) ==>
              && Decimal.AllDigits(r.acts[i].title)
              && Decimal.Parse(r.acts[i].title) == c.count
              && r.acts[i].state == acts[i].state
    ensures forall i :: 0 <= i < |acts| && !Matches(acts[i], id) ==> r.acts[i] == acts[i]
  {
    var c' := c.(context := Some(id));
    Shown(c', UpdateTitle(c', acts))
  }

  /** A press resets the count to 0 and makes the pressed key the current context. */
  function OnKeyDown(c: Counter, acts: seq<KeyAction>, id: string): (r: Shown)
    ensures r.counter == Counter(0, Some(id))
    ensures SameShape(acts, r.acts)
    ensures forall i :: 0 <= i < |acts| && Matches(acts[i], id) ==>
              r.acts[i].title == "0" && r.acts[i].state == acts[i].state
    ensures forall i :: 0 <= i < |acts| && !Matches(acts[i], id) ==> r.acts[i] == acts[i]
  {
    var c' := Counter(0, Some(id));
    assert Decimal.Render(0) == "0";
    Shown(c', UpdateTitle(c', acts))
  }

  /** `incrementCount`: one more API call, shown at once. */
  function IncrementCount(c: Counter, acts: seq<KeyAction>): (r: Shown)
    ensures r.counter == Counter(c.count + 1, c.context)
    ensures SameShape(acts, r.acts)
    ensures forall i :: 0 <= i < |acts| && c.context.Some? && Matches(acts[i], c.context.value) ==>
              && Decimal.AllDigits(r.acts[i].title)
              && Decimal.Parse(r.acts[i].title) == c.count + 1
              && r.acts[i].state == acts[i].state
    ensures forall i :: 0 <= i < |acts| && (c.context.None? || !Matches(acts[i], c.context.value)) ==> r.acts[i] == acts[i]
  {
    var c' := c.(count := c.count + 1);
    Shown(c', UpdateTitle(c', acts))
  }

  function GetApiCount(c: Counter): nat {
    c.count
  }

  function Increments(c: Counter, acts: seq<KeyAction>, n: nat): Shown {
    if n == 0 then Shown(c, acts)
    else
      var s := Increments(c, acts, n - 1);
      IncrementCount(s.counter, s.acts)
  }

  /** After `n` API calls since the plugin loaded, with no key seen yet, the count is `n` and no key changed. */
  lemma {:induction false} CountsSinceLoad(acts: seq<KeyAction>, n: nat)
    ensures GetApiCount(Increments(Start, acts, n).counter) == n
    ensures Increments(Start, acts, n).counter.context.None?
    ensures Increments(Start, acts, n).acts == acts
  {
    if n > 0 {
      CountsSinceLoad(acts, n - 1);
    }
  }

  /**
   * After a press and `n` API calls, the count is `n` and the pressed key's title reads
   * back as `n`: the key always shows the calls made since it was last pressed.
   */
  lemma {:induction false} CountsSincePress(c: Counter, acts: seq<KeyAction>, id: string, n: nat)
    ensures var s := Increments(OnKeyDown(c, acts, id).counter, OnKeyDown(c, acts, id).acts, n);
      && GetApiCount(s.counter) == n
      && s.counter.context == Some(id)
      && SameShape(acts, s.acts)
      && forall i :: 0 <= i < |acts| && Matches(acts[i], id) ==>
           Decimal.AllDigits(s.acts[i].title) && Decimal.Parse(s.acts[i].title) == n
  {
    var p := OnKeyDown(c, acts, id);
    if n == 0 {
      assert forall i :: 0 <= i < |acts| && Matches(acts[i], id) ==> p.acts[i].title == "0";
    } else {
      CountsSincePress(c, acts, id, n - 1);
      var s := Increments(p.counter, p.acts, n - 1);
      SameShapeTrans(acts, s.acts, UpdateTitle(Counter(n, Some(id)), s.acts));
    }
  }
}

=== FILE: decimal.dfy ===
/**
 * Decimal rendering of non-negative integers, as JavaScript's `Number#toString()` produces it
 * for the integral counts below 2^53 that the plugin shows: the digits without sign, separator
 * or leading zero. The exponent form `toString` uses from 10^21 on is not modelled.
 */
module Decimal {

  predicate IsDigit(c: char) {
    '0' <= c <= '9'
  }

  predicate AllDigits(s: string) {
    forall i :: 0 <= i < |s| ==> IsDigit(s[i])
  }

  function DigitChar(d: nat): (c: char)
    requires d < 10
    ensures IsDigit(c)
  {
    ('0' as int + d) as char
  }

  function DigitValue(c: char): (d: nat)
    requires IsDigit(c)
    ensures d < 10
    ensures DigitChar(d) == c
  {
    c as int - '0' as int
  }

  /** The decimal text of `n`, most significant digit first. */
  function Render(n: nat): (s: string)
    ensures |s| >= 1
    ensures AllDigits(s)
    ensures n < 10 <==> |s| == 1
    ensures |s| > 1 ==> s[0] != '0'
  {
    if n < 10 then [DigitChar(n)] else Render(n / 10) + [DigitChar(n % 10)]
  }

  /** Reads a digit string back into the number it denotes. */
  function Parse(s: string): nat
    requires AllDigits(s)
  {
    if |s| == 0 then 0 else Parse(s[..|s| - 1]) * 10 + DigitValue(s[|s| - 1])
  }

  /** Reading the rendered text gives back the number: rendering loses nothing. */
  lemma {:induction false} ParseRender(n: nat)
    ensures Parse(Render(n)) == n
  {
    if n >= 10 {
      var s := Render(n);
      assert s[..|s| - 1] == Render(n / 10);
      ParseRender(n / 10);
    }
  }

  /** Distinct numbers have distinct texts. */
  lemma RenderInjective(a: nat, b: nat)
    ensures Render(a) == Render(b) ==> a == b
  {
    ParseRender(a);
    ParseRender(b);
  }
}

=== FILE: dispatcher.dfy ===
/**
 * `processJsonData` (`src/utils/intervalManager.ts`): one telemetry snapshot becomes a list
 * of display updates. Column `c` of the deck shows link `c` (row 0 status, row 1 event count,
 * row 2 latency, row 3 packet rate); the topology keys sit at fixed positions. The updates
 * are first planned by position, then resolved through the key registry, then applied.
 */
module Dispatcher {
  import opened Wrappers
  import Decimal
  import opened KeyRegistry
  import opened Display
  import RangeBucketer
  import LinkStatus
  import Topology

  datatype Statistics = Statistics(events: nat, roundTripLatency: real, pps: real)

  datatype Link = Link(status: string, statistics: Option<Statistics>)

  /** One element of `snapshots`; an entry without `link` is skipped. */
  datatype LinkEntry = LinkEntry(name: string, link: Option<Link>)

  /** The decoded `tree`: node names (index 0 the hub) and directed edges. */
  datatype Tree = Tree(nodes: seq<string>, edges: seq<Topology.Edge>)

  datatype Snapshot = Snapshot(entries: seq<LinkEntry>, tree: Tree)

  /** A display update addressed to a grid position, before the registry resolves it. */
  datatype Put = Put(column: nat, row: nat, state: Option<int>, title: Option<string>)

  const StatusRow: nat := 0
  const EventsRow: nat := 1
  const LatencyRow: nat := 2
  const PpsRow: nat := 3

  /** Metrics are shown only for a connected link that carries statistics. */
  predicate Live(l: Link) {
    l.status == "connected" && l.statistics.Some?
  }

  /** The updates for link entry `e` in column `column`; `ppsText` renders a packet rate as text. */
  function LinkPlan(column: nat, e: LinkEntry, ppsText: real -> string): (r: seq<Put>)
    ensures e.link.None? <==> r == []
    ensures e.link.Some? ==> |r| == 4
    ensures forall k :: 0 <= k < |r| ==> r[k].column == column && r[k].row == k && r[k].title.Some?
    ensures e.link.Some? ==> r[EventsRow].state.None?
  {
    match e.link
    case None => []
    case Some(l) =>
      var status := Put(column, StatusRow, Some(LinkStatus.StatusState(l.status)), Some(""));
      if Live(l) then
        var st := l.statistics.value;
        [ status,
          Put(column, EventsRow, None, Some(Decimal.Render(st.events))),
          Put(column, LatencyRow, Some(RangeBucketer.Classify(st.roundTripLatency, RangeBucketer.LatencyTable)), Some("")),
          Put(column, PpsRow, Some(RangeBucketer.Classify(st.pps, RangeBucketer.PpsTable)), Some(ppsText(st.pps))) ]
      else
        [ status,
          Put(column, EventsRow, None, Some("")),
          Put(column, LatencyRow, Some(0), Some("")),
          Put(column, PpsRow, Some(0), Some("")) ]
  }

  /**
   * What one link's keys are told: the status state with an empty title; the event count as text
   * when the link is live (connected with statistics) and an empty title otherwise; and the
   * latency and packet-rate bands when live, state 0 with empty titles otherwise.
   */
  lemma LinkPlanContents(column: nat, e: LinkEntry, ppsText: real -> string)
    requires e.link.Some?
    ensures var r := LinkPlan(column, e, ppsText);
      && r[StatusRow].state == Some(LinkStatus.StatusState(e.link.value.status))
      && r[StatusRow].title == Some("")
      && (r[EventsRow].title == Some("") <==> !Live(e.link.value))
    ensures var r := LinkPlan(column, e, ppsText);
      Live(e.link.value) ==>
        var st := e.link.value.statistics.value;
        && Decimal.AllDigits(r[EventsRow].title.value)
        && Decimal.Parse(r[EventsRow].title.value) == st.events
        && r[LatencyRow].state == Some(RangeBucketer.Classify(st.roundTripLatency, RangeBucketer.LatencyTable))
        && r[LatencyRow].title == Some("")
        && r[PpsRow].state == Some(RangeBucketer.Classify(st.pps, RangeBucketer.PpsTable))
        && r[PpsRow].title == Some(ppsText(st.pps))
    ensures var r := LinkPlan(column, e, ppsText);
      !Live(e.link.value) ==>
        forall k :: LatencyRow <= k <= PpsRow ==> r[k].state == Some(0) && r[k].title == Some("")
  {
    if Live(e.link.value) {
      Decimal.ParseRender(e.link.value.statistics.value.events);
    }
  }

  /** The updates for all link entries, the first one in column `first`. */
  function LinksPlan(entries: seq<LinkEntry>, first: nat, ppsText: real -> string): (r: seq<Put>)
    ensures forall k :: 0 <= k < |r| ==> first <= r[k].column < first + |entries| && r[k].row <= PpsRow
    ensures forall k :: 0 <= k < |r| && r[k].row == EventsRow ==> r[k].state.None?
    ensures forall k :: 0 <= k < |r| ==> entries[r[k].column - first].link.Some?
  {
    if |entries| == 0 then []
    else
      assert forall k :: 0 <= k < |entries| - 1 ==> entries[1..][k] == entries[k + 1];
      LinkPlan(first, entries[0], ppsText) + LinksPlan(entries[1..], first + 1, ppsText)
  }

  /** `positions`: where the hub (0) and leaves 1..3 are shown. */
  function NodePosition(node: nat): (r: (nat, nat))
    requires node <= 3
    ensures 4 <= r.0 <= 5 && 2 <= r.1 <= 3
    ensures r.1 == 2 <==> node <= 1
  {
    match node
    case 0 => (4, 2)
    case 1 => (5, 2)
    case 2 => (5, 3)
    case _ => (4, 3)
  }

  /** ASCII upper-casing of one character. */
  function UpperAscii(c: char): char {
    if 'a' <= c <= 'z' then (c as int - 'a' as int + 'A' as int) as char else c
  }

  /** `name.charAt(0).toUpperCase()`: empty for an empty name. */
  function Initial(name: string): (r: string)
    ensures |r| == if |name| == 0 then 0 else 1
    ensures |name| > 0 && 'a' <= name[0] <= 'z' ==> r[0] as int == name[0] as int - 'a' as int + 'A' as int
    ensures |name| > 0 && !('a' <= name[0] <= 'z') ==> r[0] == name[0]
  {
    if |name| == 0 then "" else [UpperAscii(name[0])]
  }

  /** The state shown for node `node` of the tree. */
  function NodeState(t: Tree, node: nat): int {
    if node == 0 then Topology.HubState(t.edges) else Topology.LeafState(node, t.edges)
  }

  function NodePut(t: Tree, node: nat): Put
    requires node <= 3 && node < |t.nodes|
  {
    var (c, r) := NodePosition(node);
    Put(c, r, Some(NodeState(t, node)), Some(Initial(t.nodes[node])))
  }

  function Min(a: int, b: int): int {
    if a < b then a else b
  }

  /** `processTreeData`: the hub, then leaves 1..3 as far as `nodes` reaches; later nodes have no position. */
  function TreePlan(t: Tree): (r: seq<Put>)
    ensures |r| == Min(|t.nodes|, 4)
    ensures forall k :: 0 <= k < |r| ==> (r[k].column, r[k].row) == [(4, 2), (5, 2), (5, 3), (4, 3)][k]
    ensures forall k :: 0 <= k < |r| ==>
              r[k].state == Some(if k == 0 then Topology.HubState(t.edges) else Topology.LeafState(k, t.edges))
    ensures forall k :: 0 <= k < |r| ==> r[k].title == Some(Initial(t.nodes[k]))
    ensures forall j, k :: 0 <= j < k < |r| ==> (r[j].column, r[j].row) != (r[k].column, r[k].row)
  {
    seq(Min(|t.nodes|, 4), k requires 0 <= k < Min(|t.nodes|, 4) => NodePut(t, k))
  }

  /** All updates of one snapshot: every link entry in column order, then the tree. */
  function SnapshotPlan(s: Snapshot, ppsText: real -> string): (r: seq<Put>)
    ensures forall k :: 0 <= k < |r| && r[k].row == EventsRow ==> r[k].state.None?
  {
    LinksPlan(s.entries, 0, ppsText) + TreePlan(s.tree)
  }

  /** The context stored for a position, when it is one `if (context)` accepts (a non-empty id). */
  function Context(reg: Registry, column: nat, row: nat): (r: Option<Handle>)
    ensures r.Some? <==> GetKeyContext(reg, column, row).Some? && GetKeyContext(reg, column, row).value != ""
    ensures r.Some? ==> r == GetKeyContext(reg, column, row)
  {
    match GetKeyContext(reg, column, row)
    case Some(h) => if h != "" then Some(h) else None
    case None => None
  }

  /** The write for one planned update: none when its position has no context. */
  function ResolveOne(reg: Registry, p: Put): seq<Write> {
    match Context(reg, p.column, p.row)
    case Some(h) => [Write(h, p.state, p.title)]
    case None => []
  }

  /**
   * Resolves every planned update through the registry, dropping unregistered positions: every
   * write carries the state and title of a planned update to its position's context.
   */
  function Resolve(reg: Registry, plan: seq<Put>): (r: seq<Write>)
    ensures |r| <= |plan|
    ensures (forall k :: 0 <= k < |plan| ==> Context(reg, plan[k].column, plan[k].row).None?) ==> r == []
    ensures forall w :: w in r ==>
              exists k :: 0 <= k < |plan| && Context(reg, plan[k].column, plan[k].row) == Some(w.handle)
                          && w.state == plan[k].state && w.title == plan[k].title
  {
    if |plan| == 0 then []
    else
      var rest := Resolve(reg, plan[1..]);
      assert forall k :: 1 <= k < |plan| ==> plan[k] == plan[1..][k - 1];
      ResolveOne(reg, plan[0]) + rest
  }

  /** The converse of `Resolve`'s tracing clause: every planned update at a registered position is written. */
  lemma {:induction false} ResolveTraces(reg: Registry, plan: seq<Put>)
    ensures forall k :: 0 <= k < |plan| && Context(reg, plan[k].column, plan[k].row).Some? ==>
              Write(Context(reg, plan[k].column, plan[k].row).value, plan[k].state, plan[k].title) in Resolve(reg, plan)
  {
    if |plan| > 0 {
      ResolveTraces(reg, plan[1..]);
      assert forall k :: 1 <= k < |plan| ==> plan[k] == plan[1..][k - 1];
    }
  }

  lemma {:induction false} ResolveAppend(reg: Registry, p1: seq<Put>, p2: seq<Put>)
    ensures Resolve(reg, p1 + p2) == Resolve(reg, p1) + Resolve(reg, p2)
  {
    if |p1| > 0 {
      assert (p1 + p2)[1..] == p1[1..] + p2;
      ResolveAppend(reg, p1[1..], p2);
    } else {
      assert p1 + p2 == p2;
    }
  }

  /**
   * The display after one snapshot, and whether processing threw: with no tree nodes and a
   * key registered at the hub's position, reading the hub's name fails after every link
   * update has already been shown.
   */
  datatype Processed = Processed(acts: seq<KeyAction>, threw: bool)

  function ProcessJsonData(acts: seq<KeyAction>, reg: Registry, s: Snapshot, ppsText: real -> string): (r: Processed)
    ensures SameShape(acts, r.acts)
    ensures r.threw <==> |s.tree.nodes| == 0 && Context(reg, NodePosition(0).0, NodePosition(0).1).Some?
    ensures |s.tree.nodes| == 0 ==> r.acts == ApplyWrites(acts, Resolve(reg, LinksPlan(s.entries, 0, ppsText)))
  {
    var threw := |s.tree.nodes| == 0 && Context(reg, NodePosition(0).0, NodePosition(0).1).Some?;
    assert |s.tree.nodes| == 0 ==> SnapshotPlan(s, ppsText) == LinksPlan(s.entries, 0, ppsText);
    Processed(ApplyWrites(acts, Resolve(reg, SnapshotPlan(s, ppsText))), threw)
  }

  // ---------------------------------------------------------------- what each key ends up showing

  /** The state of the last planned update at a position that sets one. */
  function PlannedState(plan: seq<Put>, column: nat, row: nat): Option<int> {
    if |plan| == 0 then None
    else
      var p := plan[|plan| - 1];
      if p.column == column && p.row == row && p.state.Some? then p.state
      else PlannedState(plan[..|plan| - 1], column, row)
  }

  /** The title of the last planned update at a position that sets one. */
  function PlannedTitle(plan: seq<Put>, column: nat, row: nat): Option<string> {
    if |plan| == 0 then None
    else
      var p := plan[|plan| - 1];
      if p.column == column && p.row == row && p.title.Some? then p.title
      else PlannedTitle(plan[..|plan| - 1], column, row)
  }

  lemma {:induction false} PlannedAppend(p1: seq<Put>, p2: seq<Put>, column: nat, row: nat)
    ensures PlannedState(p1 + p2, column, row) == PlannedState(p2, column, row).Or(PlannedState(p1, column, row))
    ensures PlannedTitle(p1 + p2, column, row) == PlannedTitle(p2, column, row).Or(PlannedTitle(p1, column, row))
  {
    if |p2| == 0 {
      assert p1 + p2 == p1;
    } else {
      assert (p1 + p2)[..|p1 + p2| - 1] == p1 + p2[..|p2| - 1];
      PlannedAppend(p1, p2[..|p2| - 1], column, row);
    }
  }

  lemma {:induction false} PlannedElsewhere(plan: seq<Put>, column: nat, row: nat)
    requires forall k :: 0 <= k < |plan| ==> plan[k].column != column || plan[k].row != row
    ensures PlannedState(plan, column, row) == None && PlannedTitle(plan, column, row) == None
  {
    if |plan| > 0 {
      PlannedElsewhere(plan[..|plan| - 1], column, row);
    }
  }

  /** No two positions share a (non-empty) context: each key of the deck is registered once. */
  ghost predicate InjectiveContexts(reg: Registry) {
    forall c1: nat, r1: nat, c2: nat, r2: nat ::
      Context(reg, c1, r1).Some? && Context(reg, c1, r1) == Context(reg, c2, r2) ==> c1 == c2 && r1 == r2
  }

  /** Through an injective registry, the last write to a key's context is the last update planned for its position. */
  lemma {:induction false} ResolvedLastWrite(reg: Registry, plan: seq<Put>, column: nat, row: nat, h: Handle)
    requires InjectiveContexts(reg)
    requires Context(reg, column, row) == Some(h)
    ensures LastState(Resolve(reg, plan), h) == PlannedState(plan, column, row)
    ensures LastTitle(Resolve(reg, plan), h) == PlannedTitle(plan, column, row)
  {
    if |plan| > 0 {
      var init, p := plan[..|plan| - 1], plan[|plan| - 1];
      assert plan == init + [p];
      ResolveAppend(reg, init, [p]);
      LastStateAppend(Resolve(reg, init), Resolve(reg, [p]), h);
      ResolvedLastWrite(reg, init, column, row, h);
      assert Resolve(reg, [p]) == ResolveOne(reg, p);
      ResolveOneLastWrite(reg, p, column, row, h);
    }
  }

  lemma ResolveOneLastWrite(reg: Registry, p: Put, column: nat, row: nat, h: Handle)
    requires InjectiveContexts(reg)
    requires Context(reg, column, row) == Some(h)
    ensures LastState(ResolveOne(reg, p), h) == PlannedState([p], column, row)
    ensures LastTitle(ResolveOne(reg, p), h) == PlannedTitle([p], column, row)
  {
    if Context(reg, p.column, p.row) == Some(h) {
      assert p.column == column && p.row == row;
    }
  }

  /**
   * With an injective registry, the key registered at a position ends up showing the last
   * update planned for that position, and keeps its old state or title where none was planned.
   */
  lemma KeyShowsPlannedUpdate(acts: seq<KeyAction>, reg: Registry, s: Snapshot, ppsText: real -> string,
                              column: nat, row: nat, i: int)
    requires InjectiveContexts(reg)
    requires 0 <= i < |acts| && Targeted(acts, i)
    requires Context(reg, column, row) == Some(acts[i].id)
    ensures ProcessJsonData(acts, reg, s, ppsText).acts[i] ==
              Overwrite(acts[i], PlannedState(SnapshotPlan(s, ppsText), column, row),
                        PlannedTitle(SnapshotPlan(s, ppsText), column, row))
  {
    var ws := Resolve(reg, SnapshotPlan(s, ppsText));
    ApplyWritesPointwise(acts, ws);
    ResolvedLastWrite(reg, SnapshotPlan(s, ppsText), column, row, acts[i].id);
  }

  /** Processing the same snapshot twice leaves the display as processing it once. */
  lemma ProcessJsonDataIdempotent(acts: seq<KeyAction>, reg: Registry, s: Snapshot, ppsText: real -> string)
    ensures ProcessJsonData(ProcessJsonData(acts, reg, s, ppsText).acts, reg, s, ppsText) == ProcessJsonData(acts, reg, s, ppsText)
  {
    ApplyWritesIdempotent(acts, Resolve(reg, SnapshotPlan(s, ppsText)));
  }

  /** Tree updates come after every link update, so at any handle they share, the tree's update wins. */
  lemma TreeUpdatesWin(reg: Registry, s: Snapshot, ppsText: real -> string, h: Handle)
    ensures var all, tree := Resolve(reg, SnapshotPlan(s, ppsText)), Resolve(reg, TreePlan(s.tree));
      && (LastState(tree, h).Some? ==> LastState(all, h) == LastState(tree, h))
      && (LastTitle(tree, h).Some? ==> LastTitle(all, h) == LastTitle(tree, h))
  {
    ResolveAppend(reg, LinksPlan(s.entries, 0, ppsText), TreePlan(s.tree));
    LastStateAppend(Resolve(reg, LinksPlan(s.entries, 0, ppsText)), Resolve(reg, TreePlan(s.tree)), h);
  }

  // ---------------------------------------------------------------- what the plan holds per position

  /** When exactly one planned update addresses a position, it is what the position gets. */
  lemma PlannedUnique(plan: seq<Put>, k: nat, column: nat, row: nat)
    requires k < |plan| && plan[k].column == column && plan[k].row == row
    requires forall j :: 0 <= j < |plan| && j != k ==> plan[j].column != column || plan[j].row != row
    ensures PlannedState(plan, column, row) == plan[k].state
    ensures PlannedTitle(plan, column, row) == plan[k].title
  {
    var before, after := plan[..k], plan[k + 1..];
    assert plan == before + [plan[k]] + after;
    assert forall j :: 0 <= j < |after| ==> after[j] == plan[k + 1 + j];
    PlannedElsewhere(before, column, row);
    PlannedElsewhere(after, column, row);
    PlannedAppend(before + [plan[k]], after, column, row);
    PlannedAppend(before, [plan[k]], column, row);
  }

  /** Within one link's updates, each row is addressed exactly once. */
  lemma LinkPlanAt(column: nat, e: LinkEntry, ppsText: real -> string, row: nat)
    requires e.link.Some? && row <= PpsRow
    ensures var p := LinkPlan(column, e, ppsText);
      && PlannedState(p, column, row) == p[row].state
      && PlannedTitle(p, column, row) == p[row].title
  {
    PlannedUnique(LinkPlan(column, e, ppsText), row, column, row);
  }

  /** One link's updates address only its own column. */
  lemma LinkPlanElsewhere(first: nat, e: LinkEntry, ppsText: real -> string, column: nat, row: nat)
    requires first != column
    ensures PlannedState(LinkPlan(first, e, ppsText), column, row) == None
    ensures PlannedTitle(LinkPlan(first, e, ppsText), column, row) == None
  {
    PlannedElsewhere(LinkPlan(first, e, ppsText), column, row);
  }

  /** The updates for entries from column `first` on address nothing left of it. */
  lemma LinksPlanBefore(entries: seq<LinkEntry>, first: nat, ppsText: real -> string, column: nat, row: nat)
    requires column < first
    ensures PlannedState(LinksPlan(entries, first, ppsText), column, row) == None
    ensures PlannedTitle(LinksPlan(entries, first, ppsText), column, row) == None
  {
    PlannedElsewhere(LinksPlan(entries, first, ppsText), column, row);
  }

  /** Among all link updates, only the entry at `column` addresses that column. */
  lemma {:induction false} LinksPlanAt(entries: seq<LinkEntry>, first: nat, ppsText: real -> string, column: nat, row: nat)
    requires first <= column < first + |entries|
    ensures PlannedState(LinksPlan(entries, first, ppsText), column, row) ==
              PlannedState(LinkPlan(column, entries[column - first], ppsText), column, row)
    ensures PlannedTitle(LinksPlan(entries, first, ppsText), column, row) ==
              PlannedTitle(LinkPlan(column, entries[column - first], ppsText), column, row)
  {
    var head, tail := LinkPlan(first, entries[0], ppsText), LinksPlan(entries[1..], first + 1, ppsText);
    assert LinksPlan(entries, first, ppsText) == head + tail;
    PlannedAppend(head, tail, column, row);
    if column == first {
      LinksPlanBefore(entries[1..], first + 1, ppsText, column, row);
    } else {
      LinkPlanElsewhere(first, entries[0], ppsText, column, row);
      LinksPlanAt(entries[1..], first + 1, ppsText, column, row);
      assert entries[1..][column - (first + 1)] == entries[column - first];
    }
  }

  /** Link updates address only columns with an entry that carries a link. */
  lemma {:induction false} LinksPlanMissing(entries: seq<LinkEntry>, first: nat, ppsText: real -> string, column: nat, row: nat)
    requires column < first || column >= first + |entries| || entries[column - first].link.None?
    ensures PlannedState(LinksPlan(entries, first, ppsText), column, row) == None
    ensures PlannedTitle(LinksPlan(entries, first, ppsText), column, row) == None
  {
    if first <= column < first + |entries| {
      LinksPlanAt(entries, first, ppsText, column, row);
    } else {
      PlannedElsewhere(LinksPlan(entries, first, ppsText), column, row);
    }
  }

  /** The topology keys sit at pairwise distinct positions. */
  lemma NodePositionInjective(a: nat, b: nat)
    requires a <= 3 && b <= 3 && NodePosition(a) == NodePosition(b)
    ensures a == b
  {
  }

  /** Whether `(column, row)` is where one of the shown tree nodes is drawn. */
  predicate IsTreePosition(t: Tree, column: nat, row: nat) {
    exists node :: 0 <= node < Min(|t.nodes|, 4) && NodePosition(node) == (column, row)
  }

  lemma TreePlanAt(t: Tree, node: nat)
    requires node < Min(|t.nodes|, 4)
    ensures var (c, r) := NodePosition(node);
      && PlannedState(TreePlan(t), c, r) == Some(NodeState(t, node))
      && PlannedTitle(TreePlan(t), c, r) == Some(Initial(t.nodes[node]))
  {
    var p := TreePlan(t);
    var (c, r) := NodePosition(node);
    forall j | 0 <= j < |p| && j != node
      ensures p[j].column != c || p[j].row != r
    {
      if NodePosition(j) == (c, r) {
        NodePositionInjective(j, node);
      }
    }
    PlannedUnique(p, node, c, r);
  }

  lemma TreePlanElsewhere(t: Tree, column: nat, row: nat)
    requires !IsTreePosition(t, column, row)
    ensures PlannedState(TreePlan(t), column, row) == None && PlannedTitle(TreePlan(t), column, row) == None
  {
    var p := TreePlan(t);
    assert forall k :: 0 <= k < |p| ==> (p[k].column, p[k].row) == NodePosition(k) != (column, row);
    PlannedElsewhere(p, column, row);
  }

  /** A topology key is planned to show its node's state and the node name's initial. */
  lemma TreeKeyPlanned(s: Snapshot, ppsText: real -> string, node: nat)
    requires node < Min(|s.tree.nodes|, 4)
    ensures var (c, r) := NodePosition(node);
      && PlannedState(SnapshotPlan(s, ppsText), c, r) == Some(NodeState(s.tree, node))
      && PlannedTitle(SnapshotPlan(s, ppsText), c, r) == Some(Initial(s.tree.nodes[node]))
  {
    var (c, r) := NodePosition(node);
    TreePlanAt(s.tree, node);
    PlannedAppend(LinksPlan(s.entries, 0, ppsText), TreePlan(s.tree), c, r);
  }

  /**
   * A link key away from the topology keys is planned to show what its link's updates say;
   * a key whose column has no link and no tree node is left alone.
   */
  lemma LinkKeyPlanned(s: Snapshot, ppsText: real -> string, column: nat, row: nat)
    requires !IsTreePosition(s.tree, column, row)
    ensures column < |s.entries| && s.entries[column].link.Some? && row <= PpsRow ==>
              var p := LinkPlan(column, s.entries[column], ppsText);
              && PlannedState(SnapshotPlan(s, ppsText), column, row) == p[row].state
              && PlannedTitle(SnapshotPlan(s, ppsText), column, row) == p[row].title
    ensures column >= |s.entries| || s.entries[column].link.None? || row > PpsRow ==>
              && PlannedState(SnapshotPlan(s, ppsText), column, row) == None
              && PlannedTitle(SnapshotPlan(s, ppsText), column, row) == None
  {
    SnapshotPlanAwayFromTree(s, ppsText, column, row);
    if column < |s.entries| && s.entries[column].link.Some? && row <= PpsRow {
      LinkRowPlanned(s.entries, ppsText, column, row);
    } else {
      NoLinkRowPlanned(s.entries, ppsText, column, row);
    }
  }

  lemma SnapshotPlanAwayFromTree(s: Snapshot, ppsText: real -> string, column: nat, row: nat)
    requires !IsTreePosition(s.tree, column, row)
    ensures PlannedState(SnapshotPlan(s, ppsText), column, row) == PlannedState(LinksPlan(s.entries, 0, ppsText), column, row)
    ensures PlannedTitle(SnapshotPlan(s, ppsText), column, row) == PlannedTitle(LinksPlan(s.entries, 0, ppsText), column, row)
  {
    TreePlanElsewhere(s.tree, column, row);
    PlannedAppend(LinksPlan(s.entries, 0, ppsText), TreePlan(s.tree), column, row);
  }

  lemma LinkRowPlanned(entries: seq<LinkEntry>, ppsText: real -> string, column: nat, row: nat)
    requires column < |entries| && entries[column].link.Some? && row <= PpsRow
    ensures var p := LinkPlan(column, entries[column], ppsText);
      && PlannedState(LinksPlan(entries, 0, ppsText), column, row) == p[row].state
      && PlannedTitle(LinksPlan(entries, 0, ppsText), column, row) == p[row].title
  {
    LinksPlanAt(entries, 0, ppsText, column, row);
    LinkPlanAt(column, entries[column], ppsText, row);
  }

  lemma NoLinkRowPlanned(entries: seq<LinkEntry>, ppsText: real -> string, column: nat, row: nat)
    requires column >= |entries| || entries[column].link.None? || row > PpsRow
    ensures PlannedState(LinksPlan(entries, 0, ppsText), column, row) == None
    ensures PlannedTitle(LinksPlan(entries, 0, ppsText), column, row) == None
  {
    if column < |entries| && entries[column].link.Some? {
      LinksPlanAt(entries, 0, ppsText, column, row);
      PlannedElsewhere(LinkPlan(column, entries[column], ppsText), column, row);
    } else {
      LinksPlanMissing(entries, 0, ppsText, column, row);
    }
  }


  // ---------------------------------------------------------------- what each key ends up showing

  /** A topology key ends up showing its node's state, titled with the node name's initial. */
  lemma TreeKeyShowsNode(acts: seq<KeyAction>, reg: Registry, s: Snapshot, ppsText: real -> string, node: nat, i: int)
    requires InjectiveContexts(reg)
    requires node < Min(|s.tree.nodes|, 4)
    requires 0 <= i < |acts| && Targeted(acts, i)
    requires Context(reg, NodePosition(node).0, NodePosition(node).1) == Some(acts[i].id)
    ensures ProcessJsonData(acts, reg, s, ppsText).acts[i].state == NodeState(s.tree, node)
    ensures ProcessJsonData(acts, reg, s, ppsText).acts[i].title == Initial(s.tree.nodes[node])
  {
    KeyShowsPlannedUpdate(acts, reg, s, ppsText, NodePosition(node).0, NodePosition(node).1, i);
    TreeKeyPlanned(s, ppsText, node);
  }

  /**
   * A link key away from the topology keys ends up showing its link's update for that row
   * (the event-count key keeps its state); a key whose column has no link is left unchanged.
   */
  lemma LinkKeyShows(acts: seq<KeyAction>, reg: Registry, s: Snapshot, ppsText: real -> string,
                     column: nat, row: nat, i: int)
    requires InjectiveContexts(reg)
    requires !IsTreePosition(s.tree, column, row)
    requires 0 <= i < |acts| && Targeted(acts, i)
    requires Context(reg, column, row) == Some(acts[i].id)
    ensures column < |s.entries| && s.entries[column].link.Some? && row <= PpsRow ==>
              var p := LinkPlan(column, s.entries[column], ppsText);
              ProcessJsonData(acts, reg, s, ppsText).acts[i] == Overwrite(acts[i], p[row].state, p[row].title)
    ensures column >= |s.entries| || s.entries[column].link.None? || row > PpsRow ==>
              ProcessJsonData(acts, reg, s, ppsText).acts[i] == acts[i]
  {
    KeyShowsPlannedUpdate(acts, reg, s, ppsText, column, row, i);
    LinkKeyPlanned(s, ppsText, column, row);
  }
}

=== FILE: dispatcher_examples.dfy ===
/** A concrete snapshot traced through the dispatcher's plan. */
module DispatcherExamples {
  import opened Wrappers
  import Decimal
  import RangeBucketer
  import opened Dispatcher

  /** A connected link with 42 events, 2 ms latency and 16500 packets/s. */
  const Eth0 := LinkEntry("eth0", Some(Link("connected", Some(Statistics(42, 2.0, 16500.0)))))

  lemma EventsTitle()
    ensures Decimal.Render(42) == "42"
  {
    assert Decimal.Render(4) == "4";
  }

  lemma LiveLatencyRow(ppsText: real -> string)
    ensures LinkPlan(0, Eth0, ppsText)[LatencyRow] == Put(0, 2, Some(2), Some(""))
  {
    RangeBucketer.LatencyExamples();
  }

  lemma LivePpsRow(ppsText: real -> string)
    ensures LinkPlan(0, Eth0, ppsText)[PpsRow] == Put(0, 3, Some(3), Some(ppsText(16500.0)))
  {
    RangeBucketer.PpsExamples();
  }

  /** Column 0 shows status 1 (connected), the event count as text, latency band 2 and packet-rate band 3. */
  lemma LiveLinkScenario(ppsText: real -> string)
    ensures SnapshotPlan(Snapshot([Eth0], Tree([], [])), ppsText) ==
        [ Put(0, 0, Some(1), Some("")),
          Put(0, 1, None, Some("42")),
          Put(0, 2, Some(2), Some("")),
          Put(0, 3, Some(3), Some(ppsText(16500.0))) ]
  {
    var p := LinkPlan(0, Eth0, ppsText);
    EventsTitle();
    LiveLatencyRow(ppsText);
    LivePpsRow(ppsText);
    assert p == [p[0], p[1], p[2], p[3]];
    assert LinksPlan([Eth0], 0, ppsText) == p + LinksPlan([], 1, ppsText);
    assert TreePlan(Tree([], [])) == [];
  }

  /** A disconnected link: status 2, and the metric keys reset to state 0 with empty titles. */
  lemma DownLinkScenario(ppsText: real -> string)
    ensures SnapshotPlan(Snapshot([LinkEntry("eth1", Some(Link("disconnected", None)))], Tree([], [])), ppsText) ==
        [ Put(0, 0, Some(2), Some("")),
          Put(0, 1, None, Some("")),
          Put(0, 2, Some(0), Some("")),
          Put(0, 3, Some(0), Some("")) ]
  {
    var e := LinkEntry("eth1", Some(Link("disconnected", None)));
    assert LinksPlan([e], 0, ppsText) == LinkPlan(0, e, ppsText) + LinksPlan([], 1, ppsText);
    assert TreePlan(Tree([], [])) == [];
  }
}

=== FILE: display.dfy ===
/**
 * The host's list of visible actions (`streamDeck.actions`) and the writes the plugin
 * issues to it. A write targets an action by id; only keys outside a multi-action are
 * eligible, as every loop over `streamDeck.actions` in the plugin checks.
 */
module Display {
  import opened Wrappers

  datatype KeyAction = KeyAction(id: string, isKey: bool, inMultiAction: bool, state: int, title: string)

  /** One display update: an optional new state and an optional new title for one action id. */
  datatype Write = Write(handle: string, state: Option<int>, title: Option<string>)

  /** `action.isKey() && !action.isInMultiAction()`. */
  predicate Eligible(a: KeyAction) {
    a.isKey && !a.inMultiAction
  }

  predicate Matches(a: KeyAction, handle: string) {
    Eligible(a) && a.id == handle
  }

  /** Action `i` is the first eligible action whose id is `handle`: the one a loop with `break` stops at. */
  predicate IsTarget(acts: seq<KeyAction>, i: int, handle: string) {
    && 0 <= i < |acts|
    && Matches(acts[i], handle)
    && forall j :: 0 <= j < i ==> !Matches(acts[j], handle)
  }

  /** Action `i` is the one that writes addressed to its own id reach. */
  predicate Targeted(acts: seq<KeyAction>, i: int)
    requires 0 <= i < |acts|
  {
    IsTarget(acts, i, acts[i].id)
  }

  function Overwrite(a: KeyAction, state: Option<int>, title: Option<string>): KeyAction {
    a.(state := state.GetOr(a.state), title := title.GetOr(a.title))
  }

  /** Two action lists that differ at most in states and titles. */
  predicate SameShape(a: seq<KeyAction>, b: seq<KeyAction>) {
    && |a| == |b|
    && forall i :: 0 <= i < |a| ==>
         a[i].id == b[i].id && a[i].isKey == b[i].isKey && a[i].inMultiAction == b[i].inMultiAction
  }

  /** Applies `w` to the first eligible action with its id and stops, as `updateKeyState` does. */
  function ApplyWrite(acts: seq<KeyAction>, w: Write): (r: seq<KeyAction>)
    ensures SameShape(acts, r)
    ensures forall i :: 0 <= i < |acts| ==>
              r[i] == if IsTarget(acts, i, w.handle) then Overwrite(acts[i], w.state, w.title) else acts[i]
  {
    if |acts| == 0 then []
    else if Matches(acts[0], w.handle) then [Overwrite(acts[0], w.state, w.title)] + acts[1..]
    else
      var rest := ApplyWrite(acts[1..], w);
      assert forall i :: 1 <= i < |acts| ==> (IsTarget(acts, i, w.handle) <==> IsTarget(acts[1..], i - 1, w.handle));
      [acts[0]] + rest
  }

  /** `updateKeyState(context, value, stateIndex)`: state and title on the first matching key. */
  function UpdateKeyState(acts: seq<KeyAction>, context: string, title: string, state: int): (r: seq<KeyAction>)
    ensures SameShape(acts, r)
    ensures forall i :: IsTarget(acts, i, context) ==> r[i].state == state && r[i].title == title
    ensures forall i :: 0 <= i < |acts| && !IsTarget(acts, i, context) ==> r[i] == acts[i]
    ensures (forall i :: 0 <= i < |acts| ==> !Matches(acts[i], context)) ==> r == acts
  {
    ApplyWrite(acts, Write(context, Some(state), Some(title)))
  }

  /** Applies `w` to every eligible action with its id: a loop over the actions without `break`. */
  function ApplyEvery(acts: seq<KeyAction>, w: Write): (r: seq<KeyAction>)
    ensures SameShape(acts, r)
    ensures forall i :: 0 <= i < |acts| ==>
              r[i] == if Matches(acts[i], w.handle) then Overwrite(acts[i], w.state, w.title) else acts[i]
  {
    if |acts| == 0 then []
    else
      var head := if Matches(acts[0], w.handle) then Overwrite(acts[0], w.state, w.title) else acts[0];
      [head] + ApplyEvery(acts[1..], w)
  }

  /** Applies a list of writes in order. */
  function ApplyWrites(acts: seq<KeyAction>, ws: seq<Write>): (r: seq<KeyAction>)
    ensures SameShape(acts, r)
  {
    if |ws| == 0 then acts else ApplyWrite(ApplyWrites(acts, ws[..|ws| - 1]), ws[|ws| - 1])
  }

  /** The state carried by the last write to `handle` that sets one. */
  function LastState(ws: seq<Write>, handle: string): Option<int> {
    if |ws| == 0 then None
    else
      var w := ws[|ws| - 1];
      if w.handle == handle && w.state.Some? then w.state else LastState(ws[..|ws| - 1], handle)
  }

  /** The title carried by the last write to `handle` that sets one. */
  function LastTitle(ws: seq<Write>, handle: string): Option<string> {
    if |ws| == 0 then None
    else
      var w := ws[|ws| - 1];
      if w.handle == handle && w.title.Some? then w.title else LastTitle(ws[..|ws| - 1], handle)
  }

  lemma SameShapeTargets(a: seq<KeyAction>, b: seq<KeyAction>, handle: string)
    requires SameShape(a, b)
    ensures forall i :: IsTarget(a, i, handle) <==> IsTarget(b, i, handle)
  {
    assert forall i :: 0 <= i < |a| ==> (Matches(a[i], handle) <==> Matches(b[i], handle));
  }

  lemma SameShapeTrans(a: seq<KeyAction>, b: seq<KeyAction>, c: seq<KeyAction>)
    requires SameShape(a, b) && SameShape(b, c)
    ensures SameShape(a, c)
  {
  }

  /**
   * Last write wins: after a list of writes, each field of each action holds the value of
   * the last write that reached it, or its old value if none did.
   */
  lemma {:induction false} ApplyWritesPointwise(acts: seq<KeyAction>, ws: seq<Write>)
    ensures |ApplyWrites(acts, ws)| == |acts|
    ensures forall i :: 0 <= i < |acts| ==>
              ApplyWrites(acts, ws)[i] ==
                if Targeted(acts, i) then Overwrite(acts[i], LastState(ws, acts[i].id), LastTitle(ws, acts[i].id))
                else acts[i]
  {
    if |ws| > 0 {
      var ws' := ws[..|ws| - 1];
      var w := ws[|ws| - 1];
      var b := ApplyWrites(acts, ws');
      ApplyWritesPointwise(acts, ws');
      SameShapeTargets(acts, b, w.handle);
      var r := ApplyWrites(acts, ws);
      assert r == ApplyWrite(b, w);
      forall i | 0 <= i < |acts|
        ensures r[i] == if Targeted(acts, i) then Overwrite(acts[i], LastState(ws, acts[i].id), LastTitle(ws, acts[i].id))
                        else acts[i]
      {
        if IsTarget(acts, i, w.handle) {
          assert w.handle == acts[i].id;
        }
      }
    }
  }

  /** Applying the same list of writes a second time changes nothing. */
  lemma {:induction false} ApplyWritesIdempotent(acts: seq<KeyAction>, ws: seq<Write>)
    ensures ApplyWrites(ApplyWrites(acts, ws), ws) == ApplyWrites(acts, ws)
  {
    var b := ApplyWrites(acts, ws);
    var c := ApplyWrites(b, ws);
    ApplyWritesPointwise(acts, ws);
    ApplyWritesPointwise(b, ws);
    forall i | 0 <= i < |acts|
      ensures c[i] == b[i]
    {
      SameShapeTargets(acts, b, acts[i].id);
    }
  }

  /** The last write to a handle in `ws1 + ws2` comes from `ws2` whenever `ws2` has one. */
  lemma {:induction false} LastStateAppend(ws1: seq<Write>, ws2: seq<Write>, handle: string)
    ensures LastState(ws1 + ws2, handle) == LastState(ws2, handle).Or(LastState(ws1, handle))
    ensures LastTitle(ws1 + ws2, handle) == LastTitle(ws2, handle).Or(LastTitle(ws1, handle))
  {
    if |ws2| == 0 {
      assert ws1 + ws2 == ws1;
    } else {
      assert (ws1 + ws2)[..|ws1 + ws2| - 1] == ws1 + ws2[..|ws2| - 1];
      LastStateAppend(ws1, ws2[..|ws2| - 1], handle);
    }
  }
}

=== FILE: fetching.dfy ===
/**
 * `startFetching` / `stopFetching` (`src/utils/intervalManager.ts`): a single optional
 * repeating timer. The timer and the socket are outside the model; each call instead
 * returns the side effects it performs, in order.
 */
module Fetching {
  /** The two deployments `devEnv` selects between. */
  datatype DevEnv = Windows | MacMini

  /** The deployment the plugin is configured for. */
  const Configured: DevEnv := MacMini

  datatype Effect =
    | ScheduleRequests   // setInterval(…, 1500)
    | SendHealthRequest  // sendRequestViaWebSocket("request_health_data")
    | CloseSocket        // closeWebSocket()
    | CancelSchedule     // clearInterval(intervalId)

  /** Whether `intervalId` holds a timer. */
  datatype Fetcher = Fetcher(active: bool)

  const Idle := Fetcher(false)

  datatype Outcome = Outcome(fetcher: Fetcher, effects: seq<Effect>)

  /** Schedules the timer unless one is running; on a Mac mini one request is also sent right away. */
  function StartFetching(f: Fetcher, env: DevEnv): (r: Outcome)
    ensures r.fetcher.active
    ensures f.active ==> r == Outcome(f, [])
    ensures !f.active ==> |r.effects| >= 1 && r.effects[0] == ScheduleRequests
    ensures !f.active ==> (SendHealthRequest in r.effects <==> env == MacMini)
    ensures CloseSocket !in r.effects && CancelSchedule !in r.effects
  {
    if f.active then Outcome(f, [])
    else Outcome(Fetcher(true), [ScheduleRequests] + (if env == MacMini then [SendHealthRequest] else []))
  }

  /** Closes the socket and cancels the timer if one is running. */
  function StopFetching(f: Fetcher): (r: Outcome)
    ensures !r.fetcher.active
    ensures !f.active ==> r == Outcome(f, [])
    ensures f.active ==> CloseSocket in r.effects && CancelSchedule in r.effects
    ensures ScheduleRequests !in r.effects && SendHealthRequest !in r.effects
  {
    if f.active then Outcome(Fetcher(false), [CloseSocket, CancelSchedule]) else Outcome(f, [])
  }

  /** What one firing of the timer does: only the Windows deployment polls. */
  function Tick(env: DevEnv): (r: seq<Effect>)
    ensures SendHealthRequest in r <==> env == Windows
    ensures forall e :: e in r ==> e == SendHealthRequest
  {
    if env == Windows then [SendHealthRequest] else []
  }

  /**
   * In the configured Mac mini deployment a start sends one request at once and the timer's
   * firings send nothing.
   */
  lemma ConfiguredDeployment()
    ensures StartFetching(Idle, Configured).effects == [ScheduleRequests, SendHealthRequest]
    ensures Tick(Configured) == []
  {
  }

  lemma StartIdempotent(f: Fetcher, env: DevEnv)
    ensures var g := StartFetching(f, env).fetcher;
      StartFetching(g, env) == Outcome(g, [])
  {
  }

  lemma StopIdempotent(f: Fetcher)
    ensures var g := StopFetching(f).fetcher;
      StopFetching(g) == Outcome(g, [])
  {
  }

  /** Stopping undoes starting: from idle, start then stop returns to idle. */
  lemma StartStopRoundTrip(env: DevEnv)
    ensures StopFetching(StartFetching(Idle, env).fetcher).fetcher == Idle
  {
  }

  datatype Command = Start | Stop

  function Step(f: Fetcher, c: Command, env: DevEnv): Outcome {
    match c
    case Start => StartFetching(f, env)
    case Stop => StopFetching(f)
  }

  /** Runs commands in order, collecting their effects. */
  function Run(f: Fetcher, cmds: seq<Command>, env: DevEnv): Outcome {
    if |cmds| == 0 then Outcome(f, [])
    else
      var before := Run(f, cmds[..|cmds| - 1], env);
      var last := Step(before.fetcher, cmds[|cmds| - 1], env);
      Outcome(last.fetcher, before.effects + last.effects)
  }

  function Count(es: seq<Effect>, e: Effect): nat {
    multiset(es)[e]
  }

  function Bit(b: bool): nat {
    if b then 1 else 0
  }

  /**
   * No timer is ever leaked or cancelled twice: over any run of start/stop calls, the timers
   * scheduled and the one possibly running at the start balance those cancelled and the one
   * possibly running at the end.
   */
  lemma {:induction false} TimersBalanced(f: Fetcher, cmds: seq<Command>, env: DevEnv)
    ensures var r := Run(f, cmds, env);
      Count(r.effects, ScheduleRequests) + Bit(f.active) == Count(r.effects, CancelSchedule) + Bit(r.fetcher.active)
    ensures var r := Run(f, cmds, env);
      Count(r.effects, CloseSocket) == Count(r.effects, CancelSchedule)
  {
    if |cmds| > 0 {
      TimersBalanced(f, cmds[..|cmds| - 1], env);
      var before := Run(f, cmds[..|cmds| - 1], env);
      var last := Step(before.fetcher, cmds[|cmds| - 1], env);
      assert multiset(before.effects + last.effects) == multiset(before.effects) + multiset(last.effects);
    }
  }
}

=== FILE: key_registry.dfy ===
/**
 * The position registry of `src/utils/utils.ts`: a module-level map from the text key
 * `"<column>-<row>"` to the context (action id) of the key shown at that grid position.
 */
module KeyRegistry {
  import opened Wrappers
  import Decimal

  /** An action id, as the Stream Deck host assigns it. */
  type Handle = string

  /** `keyMapping`: composite text key to action id. */
  type Registry = map<string, Handle>

  /** The composite key `${columnIndex}-${keyIndex}`. */
  function Key(column: nat, row: nat): string {
    Decimal.Render(column) + "-" + Decimal.Render(row)
  }

  /** Two positions share a text key only if they are the same position. */
  lemma {:induction false} KeyInjective(c1: nat, r1: nat, c2: nat, r2: nat)
    ensures Key(c1, r1) == Key(c2, r2) ==> c1 == c2 && r1 == r2
  {
    var a1, b1 := Decimal.Render(c1), Decimal.Render(r1);
    var a2, b2 := Decimal.Render(c2), Decimal.Render(r2);
    if Key(c1, r1) == Key(c2, r2) {
      var k := Key(c1, r1);
      DashAfterDigits(a1, b1, |a2|);
      DashAfterDigits(a2, b2, |a1|);
      assert a1 == k[..|a1|] == a2;
      assert b1 == k[|a1| + 1..] == b2;
      Decimal.RenderInjective(c1, c2);
      Decimal.RenderInjective(r1, r2);
    }
  }

  /** In `a + "-" + b` with `a` all digits, no dash occurs before position `|a|`. */
  lemma DashAfterDigits(a: string, b: string, i: nat)
    requires Decimal.AllDigits(a)
    requires i < |a + "-" + b| && (a + "-" + b)[i] == '-'
    ensures i >= |a|
  {
  }

  /** The registry before any key has appeared. */
  function EmptyRegistry(): (m: Registry)
    ensures forall c: nat, r: nat :: GetKeyContext(m, c, r) == None
  {
    map[]
  }

  /** `getKeyContext`: the context stored for a position, if any. */
  function GetKeyContext(m: Registry, column: nat, row: nat): (r: Option<Handle>)
    ensures r.Some? <==> Key(column, row) in m
    ensures r.Some? ==> r.value == m[Key(column, row)]
  {
    var k := Key(column, row);
    if k in m then Some(m[k]) else None
  }

  /** `setKeyContext`: record (or replace) the context of one position. */
  function SetKeyContext(m: Registry, column: nat, row: nat, context: Handle): (m': Registry)
    ensures GetKeyContext(m', column, row) == Some(context)
    ensures forall c: nat, r: nat :: (c, r) != (column, row) ==>
              GetKeyContext(m', c, r) == GetKeyContext(m, c, r)
  {
    var m' := m[Key(column, row) := context];
    assert forall c: nat, r: nat :: (c, r) != (column, row) ==>
             GetKeyContext(m', c, r) == GetKeyContext(m, c, r) by {
      forall c: nat, r: nat | (c, r) != (column, row)
        ensures GetKeyContext(m', c, r) == GetKeyContext(m, c, r)
      {
        KeyInjective(c, r, column, row);
      }
    }
    m'
  }

  /** `clearKeyContext`: forget one position. */
  function ClearKeyContext(m: Registry, column: nat, row: nat): (m': Registry)
    ensures GetKeyContext(m', column, row) == None
    ensures forall c: nat, r: nat :: (c, r) != (column, row) ==>
              GetKeyContext(m', c, r) == GetKeyContext(m, c, r)
  {
    var m' := m - {Key(column, row)};
    assert forall c: nat, r: nat :: (c, r) != (column, row) ==>
             GetKeyContext(m', c, r) == GetKeyContext(m, c, r) by {
      forall c: nat, r: nat | (c, r) != (column, row)
        ensures GetKeyContext(m', c, r) == GetKeyContext(m, c, r)
      {
        KeyInjective(c, r, column, row);
      }
    }
    m'
  }
}

=== FILE: link_status.dfy ===
/** `mapLinkStatusToState` (`src/utils/intervalManager.ts`): link status text to key state. */
module LinkStatus {

  /** State 0 ("linked") is also the fallback for any status the plugin does not know. */
  function StatusState(status: string): (r: int)
    ensures 0 <= r <= 2
    ensures r == 1 <==> status == "connected"
    ensures r == 2 <==> status == "disconnected"
    ensures r == 0 <==> status != "connected" && status != "disconnected"
  {
    match status
    case "linked" => 0
    case "connected" => 1
    case "disconnected" => 2
    case _ => 0
  }

  /** The three named statuses get distinct states; everything else shares the "linked" state. */
  lemma StatusExamples()
    ensures StatusState("linked") == 0
    ensures StatusState("connected") == 1
    ensures StatusState("disconnected") == 2
    ensures StatusState("bogus") == 0
    ensures StatusState("") == 0
  {
  }
}

=== FILE: logos.dfy ===
/**
 * The logo key (`src/actions/logos.ts`): every press advances one counter shared by all logo
 * keys through the states 0..5 and shows it on the pressed key; on appearing, a logo key
 * registers its grid position and shows state 0.
 */
module Logos {
  import opened Wrappers
  import opened KeyRegistry
  import opened Display

  /** `stateCount`: the highest state the counter reaches before wrapping to 0. */
  const StateCount: nat := 5

  /** `currentStateCount` when the plugin loads; one counter serves every logo key. */
  const Start: nat := 0

  /** `currentStateCount++`, reset to 0 once it exceeds `StateCount`. */
  function Advance(count: nat): (r: nat)
    ensures r <= StateCount
    ensures count < StateCount ==> r == count + 1
    ensures count >= StateCount ==> r == 0
  {
    if count + 1 > StateCount then 0 else count + 1
  }

  function Iterate(count: nat, presses: nat): nat {
    if presses == 0 then count else Advance(Iterate(count, presses - 1))
  }

  /** From any reachable value the counter cycles with period `StateCount + 1`. */
  lemma {:induction false} IterateCycles(count: nat, presses: nat)
    requires count <= StateCount
    ensures Iterate(count, presses) == (count + presses) % (StateCount + 1)
  {
    if presses > 0 {
      IterateCycles(count, presses - 1);
    }
  }

  /** After `n` presses since the plugin loaded, the shared counter is at `n mod 6`. */
  lemma PressesSinceLoad(n: nat)
    ensures Iterate(Start, n) == n % (StateCount + 1)
  {
    IterateCycles(Start, n);
  }

  lemma SixPressesReturn(count: nat)
    requires count <= StateCount
    ensures Iterate(count, StateCount + 1) == count
  {
    IterateCycles(count, StateCount + 1);
  }

  datatype Pressed = Pressed(count: nat, acts: seq<KeyAction>)

  /** Advances the shared counter; if the pressed key's id is non-empty, its first eligible key shows it. */
  function OnKeyDown(count: nat, acts: seq<KeyAction>, context: string): (r: Pressed)
    ensures r.count == Advance(count)
    ensures SameShape(acts, r.acts)
    ensures context != "" ==> forall i :: IsTarget(acts, i, context) ==>
              r.acts[i].state == r.count && r.acts[i].title == acts[i].title
    ensures forall i :: 0 <= i < |acts| && (context == "" || !IsTarget(acts, i, context)) ==> r.acts[i] == acts[i]
  {
    var next := Advance(count);
    Pressed(next, if context != "" then ApplyWrite(acts, Write(context, Some(next), None)) else acts)
  }

  /** `ev.action.coordinates`, absent for an action inside a multi-action. */
  datatype Coordinates = Coordinates(column: nat, row: nat)

  datatype Appeared = Appeared(reg: Registry, acts: seq<KeyAction>)

  /** Registers the key at its position ((0, 0) without coordinates) and shows state 0 with no title. */
  function OnWillAppear(reg: Registry, acts: seq<KeyAction>, context: string, at: Option<Coordinates>): (r: Appeared)
    ensures var c := at.GetOr(Coordinates(0, 0));
      && GetKeyContext(r.reg, c.column, c.row) == Some(context)
      && forall column: nat, row: nat :: (column, row) != (c.column, c.row) ==>
           GetKeyContext(r.reg, column, row) == GetKeyContext(reg, column, row)
    ensures SameShape(acts, r.acts)
    ensures forall i :: IsTarget(acts, i, context) ==> r.acts[i].state == 0 && r.acts[i].title == ""
    ensures forall i :: 0 <= i < |acts| && !IsTarget(acts, i, context) ==> r.acts[i] == acts[i]
  {
    var c := at.GetOr(Coordinates(0, 0));
    Appeared(SetKeyContext(reg, c.column, c.row, context), UpdateKeyState(acts, context, "", 0))
  }
}

=== FILE: range_bucketer.dfy ===
/**
 * `mapValueToStateIndex` and its two configuration tables (`src/utils/intervalManager.ts`):
 * a metric is bucketed by scanning an ordered table of inclusive ranges and taking the
 * index of the first range that contains it, or -1 ("out of range") when none does.
 * Bounds and values are exact reals, where the source compares IEEE doubles: each bound and
 * value stands for the double its shortest decimal text denotes.
 */
module RangeBucketer {

  /** One row `{ range: [lo, hi], index }`. */
  datatype Band = Band(lo: real, hi: real, index: int)

  type Table = seq<Band>

  /** The state index reported when no row matches. */
  const OutOfRange: int := -1

  /** `value >= range[0] && value <= range[1]`; a row with `lo > hi` contains nothing. */
  predicate Contains(b: Band, v: real) {
    v >= b.lo && v <= b.hi
  }

  /** Row `k` is the first row of `t` at or after `from` that contains `v`. */
  predicate IsFirstMatchFrom(t: Table, v: real, from: nat, k: int) {
    && from <= k < |t|
    && Contains(t[k], v)
    && forall j :: from <= j < k ==> !Contains(t[j], v)
  }

  predicate IsFirstMatch(t: Table, v: real, k: int) {
    IsFirstMatchFrom(t, v, 0, k)
  }

  predicate NoRowContains(t: Table, v: real) {
    forall k :: 0 <= k < |t| ==> !Contains(t[k], v)
  }

  /** The scan from row `from` on. */
  function ClassifyFrom(v: real, t: Table, from: nat): (r: int)
    requires from <= |t|
    ensures forall k :: IsFirstMatchFrom(t, v, from, k) ==> r == t[k].index
    ensures (forall k :: from <= k < |t| ==> !Contains(t[k], v)) ==> r == OutOfRange
    ensures r == OutOfRange || exists k :: from <= k < |t| && Contains(t[k], v) && r == t[k].index
    decreases |t| - from
  {
    if from == |t| then OutOfRange
    else if Contains(t[from], v) then t[from].index
    else ClassifyFrom(v, t, from + 1)
  }

  /** The state index of `v` under table `t`. */
  function Classify(v: real, t: Table): (r: int)
    ensures forall k :: IsFirstMatch(t, v, k) ==> r == t[k].index
    ensures NoRowContains(t, v) ==> r == OutOfRange
    ensures r == OutOfRange || exists k :: 0 <= k < |t| && Contains(t[k], v) && r == t[k].index
  {
    ClassifyFrom(v, t, 0)
  }

  /** `mapValueToStateIndex`: the `for … of` loop with its early `return`. */
  method MapValueToStateIndex(v: real, t: Table) returns (r: int)
    ensures forall k :: IsFirstMatch(t, v, k) ==> r == t[k].index
    ensures NoRowContains(t, v) ==> r == OutOfRange
    ensures r == Classify(v, t)
  {
    var i := 0;
    while i < |t|
      invariant 0 <= i <= |t|
      invariant forall j :: 0 <= j < i ==> !Contains(t[j], v)
    {
      if Contains(t[i], v) {
        assert IsFirstMatch(t, v, i);
        return t[i].index;
      }
      i := i + 1;
    }
    return OutOfRange;
  }

  /** The latency table, 25 bands of 2.5 ms separated by 0.001 ms gaps. */
  const LatencyTable: Table := [
    Band(0.0, 1.25, 1),
    Band(1.251, 3.75, 2),
    Band(3.751, 6.25, 3),
    Band(6.251, 8.75, 4),
    Band(8.751, 11.25, 5),
    Band(11.251, 13.75, 6),
    Band(13.751, 16.25, 7),
    Band(16.251, 18.75, 8),
    Band(18.751, 21.25, 9),
    Band(21.251, 23.75, 10),
    Band(23.751, 26.25, 11),
    Band(26.251, 28.75, 12),
    Band(28.751, 31.25, 13),
    Band(31.251, 33.75, 14),
    Band(33.751, 36.25, 15),
    Band(36.251, 38.75, 16),
    Band(38.751, 41.25, 17),
    Band(41.251, 43.75, 18),
    Band(43.751, 46.25, 19),
    Band(46.251, 48.75, 20),
    Band(48.751, 51.25, 21),
    Band(51.251, 53.75, 22),
    Band(53.751, 56.25, 23),
    Band(56.251, 58.75, 24),
    Band(58.751, 100.0, 25)
  ]

  /** The packets-per-second table, 17 bands; the row for index 15 has its bounds inverted. */
  const PpsTable: Table := [
    Band(0.0, 15000.0, 1),
    Band(15000.001, 16000.0, 2),
    Band(16000.001, 17000.0, 3),
    Band(17000.01, 18000.0, 4),
    Band(18000.01, 19000.0, 5),
    Band(19000.01, 20000.0, 6),
    Band(20000.01, 21000.0, 7),
    Band(21000.01, 22000.0, 8),
    Band(22000.01, 23000.0, 9),
    Band(23000.01, 24000.0, 10),
    Band(24000.01, 25000.0, 11),
    Band(25000.01, 26000.0, 12),
    Band(26000.01, 27000.0, 13),
    Band(27000.01, 28000.0, 14),
    Band(38000.01, 29000.0, 15),
    Band(29000.01, 30000.0, 16),
    Band(30000.01, 100000.0, 17)
  ]

  /** Every row is a proper range and each row ends before the next one starts. */
  predicate Ascending(t: Table) {
    && (forall k :: 0 <= k < |t| ==> t[k].lo <= t[k].hi)
    && (forall k :: 0 < k < |t| ==> t[k - 1].hi < t[k].lo)
  }

  /** No two rows share a value. */
  predicate Separated(t: Table) {
    forall j, k :: 0 <= j < k < |t| ==> t[j].hi < t[k].lo
  }

  lemma {:induction false} AscendingSeparated(t: Table)
    requires Ascending(t)
    ensures Separated(t)
  {
    if |t| > 1 {
      var t' := t[..|t| - 1];
      assert Ascending(t');
      AscendingSeparated(t');
      forall j, k | 0 <= j < k < |t|
        ensures t[j].hi < t[k].lo
      {
        if k < |t| - 1 {
          assert t'[j] == t[j] && t'[k] == t[k];
        } else if j < k - 1 {
          assert t'[j] == t[j] && t'[k - 1] == t[k - 1];
          assert t[j].hi < t[k - 1].lo <= t[k - 1].hi < t[k].lo;
        }
      }
    }
  }

  /**
   * In a table whose rows are separated, a value is classified by the row that contains it,
   * whatever its position: a value on a shared boundary cannot be counted twice.
   */
  lemma ContainingRowDecides(t: Table, v: real, k: int)
    requires Separated(t)
    requires 0 <= k < |t| && Contains(t[k], v)
    ensures Classify(v, t) == t[k].index
  {
    assert IsFirstMatch(t, v, k);
  }

  lemma LatencyTableAscending()
    ensures Ascending(LatencyTable)
    ensures |LatencyTable| == 25
    ensures forall k :: 0 <= k < |LatencyTable| ==> LatencyTable[k].index == k + 1
    ensures forall k :: 0 <= k < |LatencyTable| ==> 0.0 <= LatencyTable[k].lo && LatencyTable[k].hi <= 100.0
  {
    LatencyRowsProper();
    LatencyRowsAscend();
    LatencyRowsNumbered();
  }

  lemma LatencyRowsProper()
    ensures forall k :: 0 <= k < |LatencyTable| ==> 0.0 <= LatencyTable[k].lo <= LatencyTable[k].hi <= 100.0
  {
  }

  lemma LatencyRowsAscend()
    ensures forall k :: 0 < k < |LatencyTable| ==> LatencyTable[k - 1].hi < LatencyTable[k].lo
  {
  }

  lemma LatencyRowsNumbered()
    ensures forall k :: 0 <= k < |LatencyTable| ==> LatencyTable[k].index == k + 1
  {
  }

  /**
   * Latency classification yields a band number 1..25 or "out of range". It is out of range
   * exactly when no band contains the value, which is always the case below 0 ms and above 100 ms.
   */
  lemma LatencyRange(v: real)
    ensures var r := Classify(v, LatencyTable); r == OutOfRange || 1 <= r <= 25
    ensures (v < 0.0 || v > 100.0) ==> Classify(v, LatencyTable) == OutOfRange
    ensures Classify(v, LatencyTable) == OutOfRange <==> NoRowContains(LatencyTable, v)
  {
    LatencyTableAscending();
    var r := Classify(v, LatencyTable);
    if r != OutOfRange {
      var k :| 0 <= k < |LatencyTable| && Contains(LatencyTable[k], v) && r == LatencyTable[k].index;
      assert r == k + 1;
    }
    if !NoRowContains(LatencyTable, v) {
      var k :| 0 <= k < |LatencyTable| && Contains(LatencyTable[k], v);
      AscendingSeparated(LatencyTable);
      ContainingRowDecides(LatencyTable, v, k);
    }
    if v < 0.0 || v > 100.0 {
      assert forall k :: 0 <= k < |LatencyTable| ==> !Contains(LatencyTable[k], v);
    }
  }

  /** A latency strictly between two consecutive bands falls into the gap and is out of range. */
  lemma LatencyGap(v: real, k: int)
    requires 0 <= k < |LatencyTable| - 1
    requires LatencyTable[k].hi < v < LatencyTable[k + 1].lo
    ensures Classify(v, LatencyTable) == OutOfRange
  {
    LatencyTableAscending();
    AscendingSeparated(LatencyTable);
    forall j | 0 <= j < |LatencyTable|
      ensures !Contains(LatencyTable[j], v)
    {
      if j < k {
        assert LatencyTable[j].hi < LatencyTable[k].lo <= LatencyTable[k].hi;
      } else if j > k + 1 {
        assert LatencyTable[k + 1].hi < LatencyTable[j].lo;
      }
    }
  }

  /** The boundary examples: 1.25 ms is still band 1, 1.2505 ms falls into the gap, 2 ms and 3.75 ms are band 2. */
  lemma LatencyExamples()
    ensures Classify(1.25, LatencyTable) == 1
    ensures Classify(1.2505, LatencyTable) == OutOfRange
    ensures Classify(2.0, LatencyTable) == 2
    ensures Classify(3.75, LatencyTable) == 2
    ensures Classify(100.0, LatencyTable) == 25
  {
    LatencyTableAscending();
    AscendingSeparated(LatencyTable);
    ContainingRowDecides(LatencyTable, 1.25, 0);
    ContainingRowDecides(LatencyTable, 2.0, 1);
    ContainingRowDecides(LatencyTable, 3.75, 1);
    ContainingRowDecides(LatencyTable, 100.0, 24);
  }

  lemma PpsTableShape()
    ensures |PpsTable| == 17
    ensures forall k :: 0 <= k < |PpsTable| ==> PpsTable[k].index == k + 1
    ensures PpsTable[14].lo > PpsTable[14].hi
  {
  }

  /** The inverted row never matches, so packet rates are never shown with state 15. */
  lemma PpsNeverFifteen(v: real)
    ensures Classify(v, PpsTable) != 15
  {
    PpsTableShape();
  }

  /** Rates strictly between 28000 and 29000.01 fall through every row and are out of range. */
  lemma PpsGap(v: real)
    requires 28000.0 < v < 29000.01
    ensures Classify(v, PpsTable) == OutOfRange
  {
    assert NoRowContains(PpsTable, v);
  }

  /** Packet-rate examples: 16500 is band 3 and 20000 (an upper bound) band 6. */
  lemma PpsExamples()
    ensures Classify(16500.0, PpsTable) == 3
    ensures Classify(20000.0, PpsTable) == 6
  {
    assert IsFirstMatch(PpsTable, 16500.0, 2);
    assert IsFirstMatch(PpsTable, 20000.0, 5);
  }
}

=== FILE: start_stop.dfy ===
/**
 * The start/stop key (`src/actions/start-stop.ts`): pressing it toggles fetching, and every
 * key carrying its id shows state 1 ("stop" image) while fetching and state 0 ("start") otherwise.
 */
module StartStop {
  import opened Wrappers
  import opened Display
  import opened Fetching

  /** The singleton's `isFetching` flag. */
  datatype StartStopKey = StartStopKey(isFetching: bool)

  const Fresh := StartStopKey(false)

  /** The key never believes it is fetching while no timer runs. */
  predicate Consistent(k: StartStopKey, f: Fetcher) {
    k.isFetching ==> f.active
  }

  function ShownState(k: StartStopKey): int {
    if k.isFetching then 1 else 0
  }

  /** Every eligible key with `context` as id shows state `state`; titles and other keys are untouched. */
  function ShowState(acts: seq<KeyAction>, context: string, state: int): (r: seq<KeyAction>)
    ensures SameShape(acts, r)
    ensures forall i :: 0 <= i < |acts| && Matches(acts[i], context) ==> r[i].state == state && r[i].title == acts[i].title
    ensures forall i :: 0 <= i < |acts| && !Matches(acts[i], context) ==> r[i] == acts[i]
  {
    ApplyEvery(acts, Write(context, Some(state), None))
  }

  datatype Appeared = Appeared(key: StartStopKey, acts: seq<KeyAction>)

  /** The key appears in the stopped state; the timer, if any, is left running. */
  function OnWillAppear(acts: seq<KeyAction>, context: string): (r: Appeared)
    ensures !r.key.isFetching
    ensures SameShape(acts, r.acts)
    ensures forall i :: 0 <= i < |acts| && Matches(acts[i], context) ==>
              r.acts[i].state == 0 && r.acts[i].title == acts[i].title
    ensures forall i :: 0 <= i < |acts| && !Matches(acts[i], context) ==> r.acts[i] == acts[i]
  {
    Appeared(StartStopKey(false), ShowState(acts, context, 0))
  }

  datatype Pressed = Pressed(key: StartStopKey, fetcher: Fetcher, effects: seq<Effect>, acts: seq<KeyAction>)

  /** A press stops fetching if the key believes it is fetching and starts it otherwise. */
  function OnKeyDown(k: StartStopKey, f: Fetcher, env: DevEnv, acts: seq<KeyAction>, context: string): (r: Pressed)
    ensures r.key.isFetching == !k.isFetching
    ensures r.fetcher.active == r.key.isFetching
    ensures k.isFetching ==> (f.active <==> CancelSchedule in r.effects)
    ensures !k.isFetching ==> (!f.active <==> ScheduleRequests in r.effects)
    ensures SameShape(acts, r.acts)
    ensures forall i :: 0 <= i < |acts| && Matches(acts[i], context) ==>
              && (r.acts[i].state == 1 <==> r.fetcher.active)
              && r.acts[i].state in {0, 1}
              && r.acts[i].title == acts[i].title
    ensures forall i :: 0 <= i < |acts| && !Matches(acts[i], context) ==> r.acts[i] == acts[i]
  {
    var o := if k.isFetching then StopFetching(f) else StartFetching(f, env);
    var k' := StartStopKey(!k.isFetching);
    Pressed(k', o.fetcher, o.effects, ShowState(acts, context, ShownState(k')))
  }

  /** Both handlers keep the key's belief consistent with the timer. */
  lemma ConsistencyPreserved(k: StartStopKey, f: Fetcher, env: DevEnv, acts: seq<KeyAction>, context: string)
    requires Consistent(k, f)
    ensures Consistent(OnWillAppear(acts, context).key, f)
    ensures var r := OnKeyDown(k, f, env, acts, context); Consistent(r.key, r.fetcher)
  {
  }

  /**
   * After the key reappears while data is being fetched, the next press starts nothing new:
   * the running timer is kept and the key goes back to showing "stop".
   */
  lemma ReappearWhileFetching(f: Fetcher, env: DevEnv, acts: seq<KeyAction>, context: string)
    requires f.active
    ensures var a := OnWillAppear(acts, context);
      var r := OnKeyDown(a.key, f, env, a.acts, context);
      && r.fetcher == f && r.effects == [] && r.key.isFetching
  {
  }

  /** From a fresh key and no timer, two presses schedule, then cancel, exactly one timer. */
  lemma TwoPressesRoundTrip(env: DevEnv, acts: seq<KeyAction>, context: string)
    ensures var r1 := OnKeyDown(Fresh, Idle, env, acts, context);
      var r2 := OnKeyDown(r1.key, r1.fetcher, env, r1.acts, context);
      && r2.key == Fresh && r2.fetcher == Idle
      && r1.effects[0] == ScheduleRequests && r2.effects == [CloseSocket, CancelSchedule]
  {
  }
}

=== FILE: topology.dfy ===
/**
 * The topology classifier of `processTreeData` (`src/utils/intervalManager.ts`): a hub
 * (node 0) and three leaves (nodes 1..3), connected by directed edges `[source, destination]`.
 * Edges are a list, not a set: a repeated edge is counted each time it occurs.
 */
module Topology {

  type Edge = (int, int)

  const Hub: int := 0

  /** How many times `e` occurs in `edges`. */
  function Count(edges: seq<Edge>, e: Edge): nat {
    multiset(edges)[e]
  }

  // ---------------------------------------------------------------- hub

  /** What one hub edge adds to the hub state: leaf 1 adds 1, leaf 3 adds 2, leaf 2 adds 4. */
  function HubWeight(dest: int): int {
    if dest == 1 then 1 else if dest == 3 then 2 else if dest == 2 then 4 else 0
  }

  /** The root state: each edge leaving the hub adds the weight of its destination. */
  function HubState(edges: seq<Edge>): (r: int)
    ensures r == Count(edges, (Hub, 1)) + 4 * Count(edges, (Hub, 2)) + 2 * Count(edges, (Hub, 3))
  {
    if |edges| == 0 then 0
    else
      var e := edges[0];
      assert edges == [e] + edges[1..];
      (if e.0 == Hub then HubWeight(e.1) else 0) + HubState(edges[1..])
  }

  /** The leaves the hub has an edge to. */
  function HubLeaves(edges: seq<Edge>): set<int> {
    (if (Hub, 1) in edges then {1} else {}) + (if (Hub, 2) in edges then {2} else {})
    + (if (Hub, 3) in edges then {3} else {})
  }

  /** Reads the set of connected leaves back out of a hub state. */
  function DecodeHubState(s: int): set<int> {
    (if s % 2 == 1 then {1} else {}) + (if s / 4 % 2 == 1 then {2} else {})
    + (if s / 2 % 2 == 1 then {3} else {})
  }

  /** No edge leaving the hub occurs twice. */
  ghost predicate NoRepeatedHubEdges(edges: seq<Edge>) {
    forall d :: Count(edges, (Hub, d)) <= 1
  }

  /**
   * Without repeated hub edges the hub state is a bitmask over the leaves, in 0..7, and
   * the connected leaves can be read back from it.
   */
  lemma HubStateIsBitmask(edges: seq<Edge>)
    requires NoRepeatedHubEdges(edges)
    ensures 0 <= HubState(edges) <= 7
    ensures DecodeHubState(HubState(edges)) == HubLeaves(edges)
  {
    var c1, c2, c3 := Count(edges, (Hub, 1)), Count(edges, (Hub, 2)), Count(edges, (Hub, 3));
    assert c1 <= 1 && c2 <= 1 && c3 <= 1;
    var b1, b2, b3 := (Hub, 1) in edges, (Hub, 2) in edges, (Hub, 3) in edges;
    CountPositive(edges, (Hub, 1));
    CountPositive(edges, (Hub, 2));
    CountPositive(edges, (Hub, 3));
    DecodeBits(c1, c2, c3);
    assert HubLeaves(edges) == (if b1 then {1} else {}) + (if b2 then {2} else {}) + (if b3 then {3} else {});
  }

  /** Distinct sets of hub edges give distinct hub states. */
  lemma HubStateInjective(e1: seq<Edge>, e2: seq<Edge>)
    requires NoRepeatedHubEdges(e1) && NoRepeatedHubEdges(e2)
    requires HubLeaves(e1) != HubLeaves(e2)
    ensures HubState(e1) != HubState(e2)
  {
    HubStateIsBitmask(e1);
    HubStateIsBitmask(e2);
  }

  lemma CountPositive(edges: seq<Edge>, e: Edge)
    ensures Count(edges, e) > 0 <==> e in edges
  {
  }

  lemma DecodeBits(c1: nat, c2: nat, c3: nat)
    requires c1 <= 1 && c2 <= 1 && c3 <= 1
    ensures 0 <= c1 + 4 * c2 + 2 * c3 <= 7
    ensures DecodeHubState(c1 + 4 * c2 + 2 * c3) ==
              (if c1 == 1 then {1} else {}) + (if c2 == 1 then {2} else {}) + (if c3 == 1 then {3} else {})
  {
  }

  // ---------------------------------------------------------------- leaves

  /** `sourceEdges`: destinations of the edges leaving `node`, in list order. */
  function OutEdges(edges: seq<Edge>, node: int): seq<int> {
    if |edges| == 0 then []
    else
      var e := edges[0];
      (if e.0 == node then [e.1] else []) + OutEdges(edges[1..], node)
  }

  /** `destinationEdges`: sources of the edges entering `node`, in list order. */
  function InEdges(edges: seq<Edge>, node: int): seq<int> {
    if |edges| == 0 then []
    else
      var e := edges[0];
      (if e.1 == node then [e.0] else []) + InEdges(edges[1..], node)
  }

  /** `sourceEdges` holds each destination exactly as often as the edge to it is listed. */
  lemma {:induction false} OutEdgesCount(edges: seq<Edge>, node: int)
    ensures forall d :: multiset(OutEdges(edges, node))[d] == Count(edges, (node, d))
  {
    if |edges| > 0 {
      assert edges == [edges[0]] + edges[1..];
      OutEdgesCount(edges[1..], node);
    }
  }

  /** `destinationEdges` holds each source exactly as often as the edge from it is listed. */
  lemma {:induction false} InEdgesCount(edges: seq<Edge>, node: int)
    ensures forall s :: multiset(InEdges(edges, node))[s] == Count(edges, (s, node))
  {
    if |edges| > 0 {
      assert edges == [edges[0]] + edges[1..];
      InEdgesCount(edges[1..], node);
    }
  }

  /** `list[k] == v` in JavaScript: false when `k` is past the end (the element is `undefined`). */
  predicate At(list: seq<int>, k: nat, v: int) {
    k < |list| && list[k] == v
  }

  /** The two other leaves of a leaf, in the order its table names them. */
  function PeerA(node: int): int {
    if node == 1 then 2 else 1
  }

  function PeerB(node: int): int {
    if node == 3 then 2 else 3
  }

  /**
   * The leaf row 12 sends its out-edge to; row 13 sends it to the other peer. Node 1's
   * table uses its first peer here, nodes 2 and 3 their second.
   */
  function Row12Out(node: int): int {
    if node == 1 then PeerA(node) else PeerB(node)
  }

  function Row12In(node: int): int {
    if node == 1 then PeerB(node) else PeerA(node)
  }

  /** Degree 1, a lone in-edge: hub 1, first peer 2, second peer 3. */
  function DegreeOneState(node: int, dst: seq<int>): int {
    var s0 := 0;
    var s1 := if At(dst, 0, Hub) then 1 else s0;
    var s2 := if At(dst, 0, PeerA(node)) then 2 else s1;
    var s3 := if At(dst, 0, PeerB(node)) then 3 else s2;
    s3
  }

  /** `(l[0] == x && l[1] == y) || (l[0] == y && l[1] == x)`. */
  predicate PairIs(l: seq<int>, x: int, y: int) {
    (At(l, 0, x) && At(l, 1, y)) || (At(l, 0, y) && At(l, 1, x))
  }

  /** Degree 2, codes 4..10; each later row that matches overrides the earlier ones. */
  function DegreeTwoState(node: int, src: seq<int>, dst: seq<int>): int {
    var a, b := PeerA(node), PeerB(node);
    var s0 := 0;
    var s1 := if At(dst, 0, Hub) && At(src, 0, a) then 4 else s0;
    var s2 := if At(dst, 0, Hub) && At(src, 0, b) then 5 else s1;
    var s3 := if At(dst, 0, a) && At(src, 0, b) then 6 else s2;
    var s4 := if At(dst, 0, b) && At(src, 0, a) then 7 else s3;
    var s5 := if PairIs(dst, Hub, a) then 8 else s4;
    var s6 := if PairIs(dst, Hub, b) then 9 else s5;
    var s7 := if PairIs(dst, a, b) then 10 else s6;
    s7
  }

  /** Degree 3, codes 11..14; each later row that matches overrides the earlier ones. */
  function DegreeThreeState(node: int, src: seq<int>, dst: seq<int>): int {
    var a, b := PeerA(node), PeerB(node);
    var o, n := Row12Out(node), Row12In(node);
    var s0 := 0;
    var s1 := if At(dst, 0, Hub) && PairIs(src, a, b) then 11 else s0;
    var s2 := if (At(dst, 0, Hub) && At(src, 0, o) && At(dst, 1, n)) || (At(dst, 0, n) && At(src, 0, o) && At(dst, 1, Hub))
              then 12 else s1;
    var s3 := if (At(dst, 0, Hub) && At(src, 0, n) && At(dst, 1, o)) || (At(dst, 0, o) && At(src, 0, n) && At(dst, 1, Hub))
              then 13 else s2;
    var s4 := if |dst| == 3 then 14 else s3;
    s4
  }

  /** The state of leaf `node`, branching on its total degree as `processTreeData` does. */
  function LeafState(node: int, edges: seq<Edge>): (r: int)
    ensures 0 <= r <= 14
    ensures !(1 <= node <= 3) ==> r == 0
    ensures |InEdges(edges, node)| == 0 ==> r == 0
    ensures |OutEdges(edges, node)| + |InEdges(edges, node)| >= 4 ==> r == 0
  {
    LeafStateOfLists(node, OutEdges(edges, node), InEdges(edges, node))
  }

  /** The leaf state from `sourceEdges` and `destinationEdges`. */
  function LeafStateOfLists(node: int, src: seq<int>, dst: seq<int>): (r: int)
    ensures 0 <= r <= 14
    ensures !(1 <= node <= 3) ==> r == 0
    ensures |dst| == 0 ==> r == 0
    ensures |src| + |dst| >= 4 ==> r == 0
    ensures |src| + |dst| == 1 && r != 0 ==> 1 <= r <= 3
    ensures |src| + |dst| == 2 && r != 0 ==> 4 <= r <= 10
    ensures |src| + |dst| == 3 && r != 0 ==> 11 <= r <= 14
  {
    if !(1 <= node <= 3) then 0
    else if |src| == 0 && |dst| == 1 then DegreeOneState(node, dst)
    else if |src| + |dst| == 2 then DegreeTwoState(node, src, dst)
    else if |src| + |dst| == 3 then DegreeThreeState(node, src, dst)
    else 0
  }

  // ---------------------------------------------------------------- leaf shapes

  /** What a leaf sees of the graph: the multiset of its out-edge targets and of its in-edge sources. */
  datatype Shape = Shape(outs: multiset<int>, ins: multiset<int>)

  function ShapeOf(edges: seq<Edge>, node: int): Shape {
    Shape(multiset(OutEdges(edges, node)), multiset(InEdges(edges, node)))
  }

  /**
   * The adjacency pattern each leaf code stands for, with `a`, `b` the leaf's peers in table
   * order: 1..3 a lone in-edge from hub, a, b; 4..7 one in-edge and one out-edge; 8..10 two
   * in-edges; 11 in from hub and out to both peers; 12, 13 in from hub and one peer and out
   * to the other peer (which peer is node-specific); 14 in-edges from all three.
   */
  function Pattern(node: int, code: int): Shape
    requires 1 <= code <= 14
  {
    var a, b := PeerA(node), PeerB(node);
    var o, n := Row12Out(node), Row12In(node);
    match code
    case 1 => Shape(multiset{}, multiset{Hub})
    case 2 => Shape(multiset{}, multiset{a})
    case 3 => Shape(multiset{}, multiset{b})
    case 4 => Shape(multiset{a}, multiset{Hub})
    case 5 => Shape(multiset{b}, multiset{Hub})
    case 6 => Shape(multiset{b}, multiset{a})
    case 7 => Shape(multiset{a}, multiset{b})
    case 8 => Shape(multiset{}, multiset{Hub, a})
    case 9 => Shape(multiset{}, multiset{Hub, b})
    case 10 => Shape(multiset{}, multiset{a, b})
    case 11 => Shape(multiset{a, b}, multiset{Hub})
    case 12 => Shape(multiset{o}, multiset{Hub, n})
    case 13 => Shape(multiset{n}, multiset{Hub, o})
    case _ => Shape(multiset{}, multiset{Hub, a, b})
  }

  lemma EmptyList(s: seq<int>)
    requires multiset(s) == multiset{}
    ensures s == []
  {
    assert |multiset(s)| == |s|;
  }

  lemma OneElementList(s: seq<int>, x: int)
    requires multiset(s) == multiset{x}
    ensures s == [x]
  {
    assert |multiset(s)| == |s|;
    assert s[0] in multiset(s);
  }

  lemma TwoElementList(s: seq<int>, x: int, y: int)
    requires multiset(s) == multiset{x, y}
    ensures |s| == 2
    ensures (s[0] == x && s[1] == y) || (s[0] == y && s[1] == x)
  {
    assert |multiset(s)| == |s|;
    assert s == [s[0], s[1]];
    assert multiset(s) == multiset{s[0], s[1]};
    assert s[0] in multiset{x, y};
  }

  /** Every edge list whose shape at leaf `node` is the pattern of `code` gets exactly that code. */
  lemma PatternGivesCode(node: int, edges: seq<Edge>, code: int)
    requires 1 <= node <= 3 && 1 <= code <= 14
    requires ShapeOf(edges, node) == Pattern(node, code)
    ensures LeafState(node, edges) == code
  {
    var src, dst := OutEdges(edges, node), InEdges(edges, node);
    if code <= 3 {
      PatternGivesCodeDegreeOne(node, src, dst, code);
    } else if code <= 10 {
      PatternGivesCodeDegreeTwo(node, src, dst, code);
    } else {
      PatternGivesCodeDegreeThree(node, src, dst, code);
    }
  }

  lemma PatternGivesCodeDegreeOne(node: int, src: seq<int>, dst: seq<int>, code: int)
    requires 1 <= node <= 3 && 1 <= code <= 3
    requires Shape(multiset(src), multiset(dst)) == Pattern(node, code)
    ensures LeafStateOfLists(node, src, dst) == code
  {
    EmptyList(src);
    OneElementList(dst, if code == 1 then Hub else if code == 2 then PeerA(node) else PeerB(node));
  }

  lemma PatternGivesCodeDegreeTwo(node: int, src: seq<int>, dst: seq<int>, code: int)
    requires 1 <= node <= 3 && 4 <= code <= 10
    requires Shape(multiset(src), multiset(dst)) == Pattern(node, code)
    ensures LeafStateOfLists(node, src, dst) == code
  {
    var a, b := PeerA(node), PeerB(node);
    if code <= 7 {
      OneElementList(src, if code == 4 || code == 7 then a else b);
      OneElementList(dst, if code <= 5 then Hub else if code == 6 then a else b);
      InAndOutCodes(node, src[0], dst[0]);
    } else {
      EmptyList(src);
      TwoElementList(dst, if code == 10 then a else Hub, if code == 8 then a else b);
      TwoInCodes(node, dst);
    }
  }

  /** One in-edge from `i` and one out-edge to `o`: codes 4..7. */
  lemma InAndOutCodes(node: int, o: int, i: int)
    requires 1 <= node <= 3
    ensures var a, b := PeerA(node), PeerB(node);
      && (i == Hub && o == a ==> LeafStateOfLists(node, [o], [i]) == 4)
      && (i == Hub && o == b ==> LeafStateOfLists(node, [o], [i]) == 5)
      && (i == a && o == b ==> LeafStateOfLists(node, [o], [i]) == 6)
      && (i == b && o == a ==> LeafStateOfLists(node, [o], [i]) == 7)
  {
  }

  /** Two in-edges, in either order: codes 8..10. */
  lemma TwoInCodes(node: int, dst: seq<int>)
    requires 1 <= node <= 3 && |dst| == 2
    ensures var a, b := PeerA(node), PeerB(node);
      && (PairIs(dst, Hub, a) ==> LeafStateOfLists(node, [], dst) == 8)
      && (PairIs(dst, Hub, b) ==> LeafStateOfLists(node, [], dst) == 9)
      && (PairIs(dst, a, b) ==> LeafStateOfLists(node, [], dst) == 10)
  {
  }

  lemma PatternGivesCodeDegreeThree(node: int, src: seq<int>, dst: seq<int>, code: int)
    requires 1 <= node <= 3 && 11 <= code <= 14
    requires Shape(multiset(src), multiset(dst)) == Pattern(node, code)
    ensures LeafStateOfLists(node, src, dst) == code
  {
    if code == 11 {
      PatternEleven(node, src, dst);
    } else if code <= 13 {
      PatternTwelveOrThirteen(node, src, dst, code);
    } else {
      EmptyList(src);
      assert |multiset(dst)| == |dst| == 3;
    }
  }

  lemma PatternEleven(node: int, src: seq<int>, dst: seq<int>)
    requires 1 <= node <= 3
    requires Shape(multiset(src), multiset(dst)) == Pattern(node, 11)
    ensures LeafStateOfLists(node, src, dst) == 11
  {
    TwoElementList(src, PeerA(node), PeerB(node));
    OneElementList(dst, Hub);
  }

  lemma PatternTwelveOrThirteen(node: int, src: seq<int>, dst: seq<int>, code: int)
    requires 1 <= node <= 3 && 12 <= code <= 13
    requires Shape(multiset(src), multiset(dst)) == Pattern(node, code)
    ensures LeafStateOfLists(node, src, dst) == code
  {
    var o, n := Row12Out(node), Row12In(node);
    OneElementList(src, if code == 12 then o else n);
    TwoElementList(dst, Hub, if code == 12 then n else o);
  }

  /** The code read off a pair of edge lists determines their shape (code 14 only their sizes). */
  lemma CodeGivesPattern(node: int, src: seq<int>, dst: seq<int>)
    requires 1 <= node <= 3
    ensures var c := LeafStateOfLists(node, src, dst);
      && (1 <= c <= 13 ==> Shape(multiset(src), multiset(dst)) == Pattern(node, c))
      && (c == 14 ==> |src| == 0 && |dst| == 3)
  {
    if |src| == 0 && |dst| == 1 {
      assert dst == [dst[0]];
    } else if |src| + |dst| == 2 {
      CodeGivesPatternDegreeTwo(node, src, dst);
    } else if |src| + |dst| == 3 {
      CodeGivesPatternDegreeThree(node, src, dst);
    }
  }

  lemma CodeGivesPatternDegreeTwo(node: int, src: seq<int>, dst: seq<int>)
    requires 1 <= node <= 3 && |src| + |dst| == 2 && !(|src| == 0 && |dst| == 1)
    ensures var c := LeafStateOfLists(node, src, dst);
      c == 0 || (4 <= c <= 10 && Shape(multiset(src), multiset(dst)) == Pattern(node, c))
  {
    if |src| == 1 {
      assert src == [src[0]] && dst == [dst[0]];
      OneOutOneIn(node, src[0], dst[0]);
    } else if |src| == 0 {
      assert dst == [dst[0], dst[1]];
      TwoIn(node, dst[0], dst[1]);
    }
  }

  lemma OneOutOneIn(node: int, x: int, y: int)
    requires 1 <= node <= 3
    ensures var c := LeafStateOfLists(node, [x], [y]);
      c == 0 || (4 <= c <= 7 && Shape(multiset{x}, multiset{y}) == Pattern(node, c))
  {
    var c := LeafStateOfLists(node, [x], [y]);
    var a, b := PeerA(node), PeerB(node);
    if c == 4 {
      assert y == Hub && x == a;
    } else if c == 5 {
      assert y == Hub && x == b;
    } else if c == 6 {
      assert y == a && x == b;
    } else if c == 7 {
      assert y == b && x == a;
    }
  }

  lemma TwoIn(node: int, x: int, y: int)
    requires 1 <= node <= 3
    ensures var c := LeafStateOfLists(node, [], [x, y]);
      c == 0 || (8 <= c <= 10 && Shape(multiset{}, multiset{x, y}) == Pattern(node, c))
  {
    var c := LeafStateOfLists(node, [], [x, y]);
    var a, b := PeerA(node), PeerB(node);
    if c == 8 {
      PairMultiset(x, y, Hub, a);
    } else if c == 9 {
      PairMultiset(x, y, Hub, b);
    } else if c == 10 {
      PairMultiset(x, y, a, b);
    }
  }

  lemma PairMultiset(x: int, y: int, p: int, q: int)
    requires (x == p && y == q) || (x == q && y == p)
    ensures multiset{x, y} == multiset{p, q}
  {
  }

  lemma CodeGivesPatternDegreeThree(node: int, src: seq<int>, dst: seq<int>)
    requires 1 <= node <= 3 && |src| + |dst| == 3
    ensures var c := LeafStateOfLists(node, src, dst);
      && (c == 0 || 11 <= c <= 14)
      && (11 <= c <= 13 ==> Shape(multiset(src), multiset(dst)) == Pattern(node, c))
      && (c == 14 ==> |src| == 0 && |dst| == 3)
  {
    if |src| == 2 {
      assert src == [src[0], src[1]] && dst == [dst[0]];
      TwoOutOneIn(node, src[0], src[1], dst[0]);
    } else if |src| == 1 {
      assert src == [src[0]] && dst == [dst[0], dst[1]];
      OneOutTwoIn(node, src[0], dst[0], dst[1]);
    }
  }

  lemma TwoOutOneIn(node: int, x: int, y: int, z: int)
    requires 1 <= node <= 3
    ensures var c := LeafStateOfLists(node, [x, y], [z]);
      c == 0 || (c == 11 && Shape(multiset{x, y}, multiset{z}) == Pattern(node, c))
  {
    var c := LeafStateOfLists(node, [x, y], [z]);
    if c == 11 {
      assert multiset{x, y} == multiset{PeerA(node), PeerB(node)};
    }
  }

  lemma OneOutTwoIn(node: int, x: int, y: int, z: int)
    requires 1 <= node <= 3
    ensures var c := LeafStateOfLists(node, [x], [y, z]);
      c == 0 || ((c == 12 || c == 13) && Shape(multiset{x}, multiset{y, z}) == Pattern(node, c))
  {
    var c := LeafStateOfLists(node, [x], [y, z]);
    var o, n := Row12Out(node), Row12In(node);
    if c == 12 {
      assert x == o && multiset{y, z} == multiset{Hub, n};
    } else if c == 13 {
      assert x == n && multiset{y, z} == multiset{Hub, o};
    }
  }

  /** Edges of a simple clique on nodes 0..3: valid endpoints, no self-loop, no repeated edge. */
  ghost predicate CliqueEdges(edges: seq<Edge>) {
    && (forall k :: 0 <= k < |edges| ==> 0 <= edges[k].0 <= 3 && 0 <= edges[k].1 <= 3 && edges[k].0 != edges[k].1)
    && (forall e :: Count(edges, e) <= 1)
  }

  /** Every in-edge source of a leaf in a simple clique is another node of the clique, met once. */
  lemma InEdgeSourcesValid(node: int, edges: seq<Edge>, s: int)
    requires CliqueEdges(edges)
    requires s in InEdges(edges, node)
    ensures 0 <= s <= 3 && s != node
    ensures multiset(InEdges(edges, node))[s] == 1
  {
    InEdgesCount(edges, node);
    assert s in multiset(InEdges(edges, node));
    assert (s, node) in multiset(edges);
    var k :| 0 <= k < |edges| && edges[k] == (s, node);
  }

  /** Every node other than leaf `node` is the hub or one of its peers. */
  lemma NotSelf(node: int, v: int)
    requires 1 <= node <= 3 && 0 <= v <= 3 && v != node
    ensures v == Hub || v == PeerA(node) || v == PeerB(node)
  {
  }

  lemma ThreeDistinctPeers(node: int, x: int, y: int, z: int)
    requires 1 <= node <= 3
    requires 0 <= x <= 3 && 0 <= y <= 3 && 0 <= z <= 3
    requires x != node && y != node && z != node
    requires x != y && x != z && y != z
    ensures multiset{x, y, z} == multiset{Hub, PeerA(node), PeerB(node)}
  {
    var a, b := PeerA(node), PeerB(node);
    NotSelf(node, x);
    NotSelf(node, y);
    NotSelf(node, z);
    if x == Hub {
      if y == a { assert z == b; } else { assert y == b && z == a; }
    } else if x == a {
      if y == Hub { assert z == b; } else { assert y == b && z == Hub; }
    } else {
      if y == Hub { assert z == a; } else { assert y == a && z == Hub; }
    }
  }

  /** In a simple clique, three in-edges can only come from the hub and both peers. */
  lemma ThreeInEdgesAreAllPeers(node: int, edges: seq<Edge>)
    requires 1 <= node <= 3 && CliqueEdges(edges)
    requires |InEdges(edges, node)| == 3
    ensures multiset(InEdges(edges, node)) == multiset{Hub, PeerA(node), PeerB(node)}
  {
    var dst := InEdges(edges, node);
    InEdgeSourcesValid(node, edges, dst[0]);
    InEdgeSourcesValid(node, edges, dst[1]);
    InEdgeSourcesValid(node, edges, dst[2]);
    assert dst == [dst[0], dst[1], dst[2]];
    assert multiset(dst) == multiset{dst[0], dst[1], dst[2]};
    ThreeDistinctPeers(node, dst[0], dst[1], dst[2]);
  }

  /**
   * The leaf code is exactly the adjacency pattern: for codes 1..13 on any edge list, and for
   * code 14 on the edges of a simple clique.
   */
  lemma LeafStateIffPattern(node: int, edges: seq<Edge>, code: int)
    requires 1 <= node <= 3 && 1 <= code <= 14
    requires code == 14 ==> CliqueEdges(edges)
    ensures LeafState(node, edges) == code <==> ShapeOf(edges, node) == Pattern(node, code)
  {
    if ShapeOf(edges, node) == Pattern(node, code) {
      PatternGivesCode(node, edges, code);
    }
    if LeafState(node, edges) == code {
      LeafStateGivesPattern(node, edges);
    }
  }

  lemma LeafStateGivesPattern(node: int, edges: seq<Edge>)
    requires 1 <= node <= 3
    requires 1 <= LeafState(node, edges) <= 13 || (LeafState(node, edges) == 14 && CliqueEdges(edges))
    ensures ShapeOf(edges, node) == Pattern(node, LeafState(node, edges))
  {
    var src, dst := OutEdges(edges, node), InEdges(edges, node);
    CodeGivesPattern(node, src, dst);
    if LeafState(node, edges) == 14 {
      EmptyListSize(src);
      ThreeInEdgesAreAllPeers(node, edges);
    }
  }

  lemma EmptyListSize(s: seq<int>)
    requires |s| == 0
    ensures multiset(s) == multiset{}
  {
  }

  /** A leaf's code depends only on its shape, never on the order in which edges are listed. */
  lemma LeafStateDependsOnlyOnShape(node: int, e1: seq<Edge>, e2: seq<Edge>)
    requires ShapeOf(e1, node) == ShapeOf(e2, node)
    ensures LeafState(node, e1) == LeafState(node, e2)
  {
    if 1 <= node <= 3 {
      var c1, c2 := LeafState(node, e1), LeafState(node, e2);
      CodeGivesPattern(node, OutEdges(e1, node), InEdges(e1, node));
      CodeGivesPattern(node, OutEdges(e2, node), InEdges(e2, node));
      if 1 <= c1 <= 13 {
        PatternGivesCode(node, e2, c1);
      } else if 1 <= c2 <= 13 {
        PatternGivesCode(node, e1, c2);
      } else if c1 == 14 || c2 == 14 {
        SizesOfShape(node, e1, e2);
      }
    }
  }

  lemma SizesOfShape(node: int, e1: seq<Edge>, e2: seq<Edge>)
    requires ShapeOf(e1, node) == ShapeOf(e2, node)
    ensures |OutEdges(e1, node)| == |OutEdges(e2, node)|
    ensures |InEdges(e1, node)| == |InEdges(e2, node)|
  {
    assert |multiset(OutEdges(e1, node))| == |OutEdges(e1, node)|;
    assert |multiset(OutEdges(e2, node))| == |OutEdges(e2, node)|;
    assert |multiset(InEdges(e1, node))| == |InEdges(e1, node)|;
    assert |multiset(InEdges(e2, node))| == |InEdges(e2, node)|;
  }

  /** Listing the same edges in another order changes neither the hub state nor any leaf state. */
  lemma ReorderingEdges(e1: seq<Edge>, e2: seq<Edge>, node: int)
    requires multiset(e1) == multiset(e2)
    ensures HubState(e1) == HubState(e2)
    ensures LeafState(node, e1) == LeafState(node, e2)
  {
    OutEdgesCount(e1, node);
    OutEdgesCount(e2, node);
    InEdgesCount(e1, node);
    InEdgesCount(e2, node);
    forall d
      ensures multiset(OutEdges(e1, node))[d] == multiset(OutEdges(e2, node))[d]
      ensures multiset(InEdges(e1, node))[d] == multiset(InEdges(e2, node))[d]
    {
      assert Count(e1, (node, d)) == Count(e2, (node, d));
      assert Count(e1, (d, node)) == Count(e2, (d, node));
    }
    assert multiset(OutEdges(e1, node)) == multiset(OutEdges(e2, node));
    assert multiset(InEdges(e1, node)) == multiset(InEdges(e2, node));
    LeafStateDependsOnlyOnShape(node, e1, e2);
  }
}

=== FILE: topology_examples.dfy ===
/** Worked examples of the topology classifier, each checked against the model. */
module TopologyExamples {
  import opened Topology

  /** The worked examples, and a repeated edge aliasing another leaf: two edges to leaf 1 read as one edge to leaf 3. */
  lemma HubExamples()
    ensures HubState([(0, 1)]) == 1
    ensures HubState([(0, 1), (0, 2)]) == 5
    ensures HubState([(0, 1), (0, 2), (0, 3)]) == 7
    ensures HubState([(1, 0), (2, 0), (2, 3)]) == 0
    ensures HubState([(0, 1), (0, 1)]) == HubState([(0, 3)]) == 2
  {
    assert multiset([(0, 1), (0, 2), (0, 3)])[(0, 1)] == 1;
    assert multiset([(0, 1), (0, 1)])[(0, 1)] == 2;
  }

  /** Worked examples for node 1 (peers 2 then 3): lone in-edges, a lone out-edge, and no edges. */
  lemma LeafExamplesDegreeOne()
    ensures LeafState(1, [(0, 1)]) == 1
    ensures LeafState(1, [(3, 1)]) == 3
    ensures LeafState(1, [(1, 2)]) == 0
    ensures LeafState(1, []) == 0
  {
  }

  /** Example: in from the hub and out to peer 2 gives 4. */
  lemma LeafExampleInHubOutPeer()
    ensures LeafState(1, [(0, 1), (1, 2)]) == 4
  {
    var edges := [(0, 1), (1, 2)];
    assert OutEdges(edges, 1) == [2];
    assert InEdges(edges, 1) == [0];
    assert LeafStateOfLists(1, [2], [0]) == 4;
  }

  /** Example: two out-edges and no in-edge stay 0. */
  lemma LeafExampleTwoOut()
    ensures LeafState(1, [(1, 2), (1, 3)]) == 0
  {
    var edges := [(1, 2), (1, 3)];
    assert OutEdges(edges, 1) == [2, 3];
    assert InEdges(edges, 1) == [];
    assert LeafStateOfLists(1, [2, 3], []) == 0;
  }

  /** Example: node 1: in from the hub and 3, out to 2 gives 12. */
  lemma LeafExampleRow12Node1()
    ensures LeafState(1, [(0, 1), (1, 2), (3, 1)]) == 12
  {
    var edges := [(0, 1), (1, 2), (3, 1)];
    assert OutEdges(edges, 1) == [2];
    assert InEdges(edges, 1) == [0, 3];
    assert LeafStateOfLists(1, [2], [0, 3]) == 12;
  }

  /** Example: node 2: in from the hub and 1, out to 3 gives 12 (the second peer, unlike node 1). */
  lemma LeafExampleRow12Node2()
    ensures LeafState(2, [(0, 2), (2, 3), (1, 2)]) == 12
  {
    var edges := [(0, 2), (2, 3), (1, 2)];
    assert OutEdges(edges, 2) == [3];
    assert InEdges(edges, 2) == [0, 1];
    assert LeafStateOfLists(2, [3], [0, 1]) == 12;
  }

  /** Example: in from the hub, out to both peers gives 11. */
  lemma LeafExampleRow11()
    ensures LeafState(1, [(0, 1), (1, 2), (1, 3)]) == 11
  {
    var edges := [(0, 1), (1, 2), (1, 3)];
    assert OutEdges(edges, 1) == [2, 3];
    assert InEdges(edges, 1) == [0];
    assert LeafStateOfLists(1, [2, 3], [0]) == 11;
  }

  /** Example: three in-edges give 14. */
  lemma LeafExampleAllIn()
    ensures LeafState(1, [(0, 1), (2, 1), (3, 1)]) == 14
  {
    var edges := [(0, 1), (2, 1), (3, 1)];
    assert OutEdges(edges, 1) == [];
    assert InEdges(edges, 1) == [0, 2, 3];
    assert LeafStateOfLists(1, [], [0, 2, 3]) == 14;
  }
}

=== FILE: wrappers.dfy ===
/** Optional values, standing in for JavaScript's `undefined`/`null`. */
module Wrappers {

  datatype Option<+T> = None | Some(value: T) {

    /** The wrapped value, or `default` when there is none. */
    function GetOr(default: T): T {
      match this
      case Some(v) => v
      case None => default
    }

    /** `this` when present, otherwise `other` (a later write overriding an earlier one). */
    function Or(other: Option<T>): Option<T> {
      if Some? then this else other
    }
  }
}
